=== FILE: README.md ===
# Barrier planning, Python type checking and pretty-printing names

This project models, in Dafny, four parts of the core of the parir compiler. The compiler turns annotated Python functions into GPU (CUDA) kernels.

- **Barrier planning** (`sync.dfy`, module `Sync`, from `src/cuda/sync.rs`). Every parallel for-loop ends with an implicit barrier. The pass works in three steps:
  - **Collection** gathers one candidate per parallel loop.
  - **Elimination** drops the candidates the execution model makes redundant: the outermost parallel loop on each path from the root (its end is the end of the kernel), and a plain (non-reduction) parallel loop that ends the body of a parallel loop.
  - **Validation** rejects the program when a surviving barrier would sit at a `Block` or `ThreadBlock` level of its kernel's GPU hierarchy, since that would need inter-block synchronization.

  The loop IR is cut down to what the pass looks at. The main theorems:
  - an exact description of the eliminated set under unique loop variables (`EliminationExact`);
  - an if-and-only-if for validation against a positional specification (`CheckFoldSpec`);
  - the same for the whole pass (`IdentifySyncPointsSpec`).
- **The Python AST** (`ast.dfy`, module `PyAst`, from `src/py/ast.rs`). It covers:
  - element sizes and their classes, and types;
  - the scalar projections of types;
  - the hand-written orders on types and expressions;
  - the type, discriminator and info projections of expressions.
- **The type checker** (`type_check.dfy`, module `TypeCheck`, from `src/py/type_check.rs`). It covers:
  - the least upper bound of element sizes and of types;
  - coercion, which inserts `Convert` nodes;
  - the typing of unary and binary operators and of builtins;
  - checking expressions and statements under an environment from names to types, starting from `type_check_body` with typed parameters.
- **The pretty-printing environment** (`pprint.dfy`, module `PrettyPrint`, from `src/utils/pprint.rs`). It covers:
  - the indentation;
  - the allocation of a distinct printed string per variable name;
  - printing a list of names joined by a separator.

Two small shared modules support these:
- `Results` (`results.dfy`): the result, outcome and option types.
- `Names` (`names.dfy`): a stand-in for the compiler's `Name`, a string plus a symbol.

Two consequences of the elimination rules described in the pass's doc comment (src/cuda/sync.rs:192-207), which the comment does not spell out:
- Elimination is not idempotent. `Sync.EliminationNotIdempotent` shows a second run over the result removing a barrier the first run kept.
- A reduction loop that is the outermost parallel loop on its root path loses its barrier (`Sync.RootReductionScenario`). Every other reduction loop keeps it (`Sync.ReductionsKept`).

## Model

| member | source | states |
|---|---|---|
| Sync.CollectStmt | src/cuda/sync.rs:10-27 | collection never fails from `Ok`; it only adds names, and the names it adds are parallel loop variables of the statement |
| Sync.CollectStmts | src/cuda/sync.rs:29-34 | the fold over a body: an `Err` accumulator stays an `Err`, an `Ok` one stays `Ok` and only grows by parallel loop variables of the body |
| Sync.CollectExact | src/cuda/sync.rs:10-34 | collection from `Ok(acc)` yields exactly `acc` plus the variables of all parallel loops at any depth, reductions included, under `If` and `While` too |
| Sync.StmtCollectExact | src/cuda/sync.rs:10-27 | the same for one statement |
| Sync.RemoveParStmt | src/cuda/sync.rs:36-50 | tail-aware elimination of one non-final statement only removes names, and only variables of plain parallel loops inside it; it never removes the loop's own variable |
| Sync.RemoveParFold | src/cuda/sync.rs:47 | the fold over sub-statements keeps within the input and removes only plain parallel loop variables |
| Sync.RemoveParFoldRev | src/cuda/sync.rs:70-73 | the reverse fold over the non-final statements keeps within the input and removes only plain parallel loop variables |
| Sync.RemoveParLast | src/cuda/sync.rs:57-69 | the last statement of a body keeps within the input and removes only plain parallel loop variables; a plain parallel loop ending a parallel body loses its own barrier |
| Sync.RemoveParStmts | src/cuda/sync.rs:52-74 | tail-aware elimination of a body removes only plain parallel loop variables, and the result contains none of the body's tail loops that the tail rule removes |
| Sync.RemoveStmt | src/cuda/sync.rs:76-95 | top-level elimination of one statement keeps within the input and removes only loop variables of the statement |
| Sync.RemoveStmts | src/cuda/sync.rs:97-102 | top-level elimination of a body keeps within the input and removes only loop variables of the body |
| Sync.RemoveParStmtExact | src/cuda/sync.rs:36-50 | for a statement whose loop variables are bound once, tail-aware elimination removes exactly the plain parallel loops that end a parallel loop's body inside it |
| Sync.RemoveParFoldExact | src/cuda/sync.rs:47 | the forward fold removes exactly those tail loops of the statements |
| Sync.RemoveParFoldRevExact | src/cuda/sync.rs:70-73 | the reverse fold removes exactly those tail loops of the statements |
| Sync.RemoveParLastExact | src/cuda/sync.rs:57-69 | for a statement whose loop variables are bound once, the last statement loses exactly its own barrier when it is the tail of a parallel body, and the tail loops inside it |
| Sync.RemoveParStmtsExact | src/cuda/sync.rs:52-74 | a tail-aware body loses exactly its own final loop when `in_par` holds and that loop is plain parallel, plus the tail loops inside it |
| Sync.RemoveStmtExact | src/cuda/sync.rs:76-95 | top-level elimination of a statement removes exactly its root-first parallel loops and the tail loops below them |
| Sync.RemoveStmtsExact | src/cuda/sync.rs:97-102 | the same for a body |
| Sync.EliminationExact | src/cuda/sync.rs:213-221 | with unique loop variables, the kept barriers are exactly the parallel loops that are neither first on their root path nor a plain parallel loop ending a parallel body |
| Sync.ReductionsKept | src/cuda/sync.rs:57-62 | a reduction loop keeps its barrier unless it is the first parallel loop on its root path |
| Sync.CheckParStmt | src/cuda/sync.rs:104-146 | `ensure_no_inter_block_sync_par_stmt`: a loop in the set needs a `Thread` level at the head of the slice and fails with the reduction or plain-loop error otherwise; a loop in the set or a parallel one drops a level for its body; pass and fail are characterised by `CheckParStmtSpec` and `CheckParStmtError` |
| Sync.CheckParFold | src/cuda/sync.rs:148-156 | `ensure_no_inter_block_sync_par_stmts`: checks the statements in order and stops at the first failure; characterised by `CheckParFoldSpec` and `CheckParFoldError` |
| Sync.CheckStmt | src/cuda/sync.rs:158-180 | `ensure_no_inter_block_sync_stmt`: a loop with a mapping entry has its body checked in tail-aware mode against its mapping minus the first level; other statements are descended; characterised by `CheckStmtSpec` and `CheckStmtError` |
| Sync.CheckFold | src/cuda/sync.rs:182-190 | `ensure_no_inter_block_sync_stmts`: the root-level check of a body, stopping at the first failure; characterised by `CheckFoldSpec` and `CheckFoldError` |
| Sync.CheckParFoldSpec | src/cuda/sync.rs:148-156 | tail-aware validation of a body passes iff every loop it reaches satisfies two rules: a loop that consumes a level (in the set or parallel) finds a non-empty slice, and a loop in the set finds a `Thread` level at the head |
| Sync.CheckParStmtSpec | src/cuda/sync.rs:104-146 | the same for one statement: a consuming loop drops one level for its body, a sequential loop none, and `If`/`While` pass the slice through |
| Sync.CheckParFoldError | src/cuda/sync.rs:104-156 | when tail-aware validation fails, some loop it meets explains the error: out of levels for `SliceOutOfRange`; otherwise a loop in the set at a non-thread level, a reduction for `InterBlockReduction` and a plain loop for `InterBlockLoop` |
| Sync.CheckParStmtError | src/cuda/sync.rs:104-146 | the same for one statement |
| Sync.CheckFoldError | src/cuda/sync.rs:158-190 | when validation from the root fails, an outermost mapped loop explains the error: `SliceOutOfRange` when its mapping is empty, otherwise the error of a loop its body meets in the levels below, as `CheckParFoldError` describes it |
| Sync.CheckStmtError | src/cuda/sync.rs:158-180 | the same for one statement |
| Sync.CheckFoldSpec | src/cuda/sync.rs:182-190 | validation from the root passes iff the body of every outermost mapped loop satisfies the tail-aware rules with its mapping minus the first level |
| Sync.CheckStmtSpec | src/cuda/sync.rs:158-180 | the same for one statement: an unmapped loop is descended in root mode, a mapped one restarts from its own hierarchy |
| Sync.IntraBlockSplit | src/cuda/sync.rs:153-155 | the validation property of a body is the conjunction of its first statement's and the rest's |
| Sync.KernelsIntraBlockSplit | src/cuda/sync.rs:187-189 | the same for validation from the root |
| Sync.IdentifySyncPoints | src/cuda/sync.rs:208-229 | the pass returns a subset of the parallel loop variables, and succeeds iff validation passes on the set kept by elimination |
| Sync.IdentifySyncPointsSpec | src/cuda/sync.rs:208-229 | with unique loop variables the pass succeeds iff every kept barrier is intra-block in its kernel, and then returns exactly the kept set of `EliminationExact` |
| Sync.SplitFirst | src/cuda/sync.rs:33 | the loop-variable sets of a body split into its first statement and the rest |
| Sync.SplitLast | src/cuda/sync.rs:57-73 | the loop-variable sets of a body split into the statements before the last and the last |
| Sync.LoopVarsWithin | src/cuda/sync.rs:17-19 | a finer loop kind selects fewer variables: plain parallel or reduction within parallel within any |
| Sync.StmtLoopVarsWithin | src/cuda/sync.rs:17-19 | the same for one statement |
| Sync.ParTailWithin | src/cuda/sync.rs:59-61 | the loops the tail rule can remove are plain parallel loops |
| Sync.StmtParTailWithin | src/cuda/sync.rs:59-61 | the same for one statement |
| Sync.RootFirstWithin | src/cuda/sync.rs:82-85 | the loops removed as first on their root path are parallel loops |
| Sync.StmtRootFirstWithin | src/cuda/sync.rs:82-85 | the same for one statement |
| Sync.UniqueSplitFirst | src/cuda/sync.rs:33 | unique binding of loop variables splits into the first statement and the rest, whose variables are disjoint |
| Sync.UniqueSplitLast | src/cuda/sync.rs:70-73 | the same split at the last statement |
| Sync.KindsDisjoint | src/cuda/sync.rs:59 | with unique loop variables, plain parallel and reduction loops have disjoint variables |
| Sync.StmtKindsDisjoint | src/cuda/sync.rs:59 | the same for one statement |
| Sync.MarksSplit | src/cuda/sync.rs:42 | the candidate set marks the parallel loops of a body iff it marks those of each part |
| Sync.MarksAfterRemoval | src/cuda/sync.rs:84 | removing a loop's own variable keeps the marking of its body |
| Sync.ForMarks | src/cuda/sync.rs:41-43 | a loop's variable is in the marking set iff the loop is parallel, and its body stays marked |
| Sync.MarksSplitFirst | src/cuda/sync.rs:33 | marking distributes over the first statement and the rest |
| Sync.MarksSplitLast | src/cuda/sync.rs:57-73 | marking distributes over the last statement and the rest |
| Sync.MarksSplitIf | src/cuda/sync.rs:45-47 | marking distributes over the branches of an `If` |
| Sync.EmptyBodyScenario | src/cuda/sync.rs:249-252 | an empty body yields no barrier |
| Sync.SingleLoopScenario | src/cuda/sync.rs:254-261 | a single parallel loop yields no barrier |
| Sync.SubsequentLoopsElimination | src/cuda/sync.rs:263-285 | for `x{y; z}` collection gives `{x, y, z}` and elimination keeps `{y}` |
| Sync.SubsequentLoopsScenario | src/cuda/sync.rs:263-285 | with `x` mapped to a block level over a thread level, the pass returns `{y}` |
| Sync.InterBlockScenario | src/cuda/sync.rs:287-300 | with a non-thread second level, the barrier after `y` spans blocks and the pass fails with the plain-loop error |
| Sync.NoParallelLoopsScenario | src/cuda/sync.rs:212-228 | a body without parallel loops needs no barrier |
| Sync.RootReductionScenario | src/cuda/sync.rs:82-85 | a root-level reduction loop loses its barrier |
| Sync.EliminationNotIdempotent | src/cuda/sync.rs:82-87 | a second elimination over `{y}` removes `y` too |
| PyAst.ElemSizeClasses | src/py/ast.rs:16-30 | the integer and float classes are disjoint, and `Bool` is in neither while every other size is in one |
| PyAst.RankInjective | src/py/ast.rs:11-14 | the derived order of sizes tells every two sizes apart |
| PyAst.GetScalarElemSize | src/py/ast.rs:57-62 | `get_scalar_elem_size`: the size of a rank-0 tensor, nothing for any other type; characterised by `ScalarElemSize` |
| PyAst.ScalarElemSize | src/py/ast.rs:56-78 | `get_scalar_elem_size` is `Some(sz)` exactly for a rank-0 tensor of size `sz`, and `is_boolean`/`is_signed_integer`/`is_floating_point` hold only for scalars of their class |
| PyAst.Lookup | src/py/type_check.rs:424 | a dictionary field lookup finds a value iff some entry has the key, and the value found is that entry's |
| PyAst.TypeCmpWith | src/py/ast.rs:88-115 | `Ord for Type`, with a switch between the dictionary case as written and the corrected one; its laws are `TypeVariantOrder`, `TensorOrder`, `TuplePrefixOrder`, `TypeCmpRefl` and `TypeCmpReverse` |
| PyAst.TypeCmpAsWritten | src/py/ast.rs:88-115 | the order of types as written, where a dictionary is `Equal` to any extension of itself (`DictPrefixComparesEqual`) |
| PyAst.TypeCmp | src/py/ast.rs:88-115 | the order of types with the dictionary case corrected, whose `Equal` is equality (`TypeCmpEqual`) |
| PyAst.TypeVariantOrder | src/py/ast.rs:88-115 | types of different variants are ordered String < Tensor < Tuple < Dict < Unknown |
| PyAst.TensorOrder | src/py/ast.rs:95-97 | tensors are ordered by element size first, and by shape only when the sizes agree |
| PyAst.TuplePrefixOrder | src/py/ast.rs:100-101 | a tuple is below every tuple it is a proper prefix of |
| PyAst.TypesPrefixOrder | src/py/ast.rs:100-101 | the same for the element vectors |
| PyAst.TypeCmpRefl | src/py/ast.rs:88-115 | every type compares `Equal` to itself |
| PyAst.TypesCmpRefl | src/py/ast.rs:100-101 | every type vector compares `Equal` to itself |
| PyAst.FieldsFoldRefl | src/py/ast.rs:104-109 | the field fold of a dictionary with itself is `Equal` |
| PyAst.TypeCmpReverse | src/py/ast.rs:88-115 | swapping the operands reverses the order, within and across variants |
| PyAst.TypesCmpReverse | src/py/ast.rs:100-101 | the same for type vectors |
| PyAst.FieldsFoldReverse | src/py/ast.rs:104-109 | the same for the field fold |
| PyAst.TypeCmpEqual | src/py/ast.rs:88-123 | with the dictionary case corrected, two types compare `Equal` iff they are equal, as `Eq` requires |
| PyAst.TypesCmpEqual | src/py/ast.rs:100-101 | under the corrected order of types, type vectors compare `Equal` iff equal |
| PyAst.FieldsFoldEqual | src/py/ast.rs:104-109 | under the corrected order of types, the field fold ends `Equal` iff it starts `Equal` and the zipped fields are equal |
| PyAst.DictPrefixComparesEqual | src/py/ast.rs:104-109 | as written, a dictionary type compares `Equal` to every extension of its fields, which is a different type |
| PyAst.DictPrefixFold | src/py/ast.rs:104-109 | the fold over a field list and an extension of it is `Equal` |
| PyAst.GetType | src/py/ast.rs:244-260 | `get_type`: the type annotation of an expression, the target type for a conversion; `WithInfoKeepsType` says `with_info` keeps it |
| PyAst.Discriminator | src/py/ast.rs:262-278 | `discriminator`: the variant's index 0 to 12; `DiscriminatorInjective` says it tells the variants apart |
| PyAst.WithInfo | src/py/ast.rs:280-296 | `with_info`: replaces the info of an expression, and of the converted expression for a conversion; its laws are `GetInfoWithInfo` and `WithInfoTwice` |
| PyAst.GetInfo | src/py/ast.rs:381-398 | `get_info`: the info of an expression, that of the converted expression for a conversion; `GetInfoWithInfo` relates it to `with_info` |
| PyAst.DiscriminatorInjective | src/py/ast.rs:262-278 | the discriminator is below 13 and equal exactly for expressions of the same variant |
| PyAst.WithInfoKeepsType | src/py/ast.rs:280-296 | `with_info` keeps the type and the variant |
| PyAst.GetInfoWithInfo | src/py/ast.rs:280-296 | the info read back after `with_info` is the info set, also through `Convert`, whose info is that of the wrapped expression (src/py/ast.rs:396) |
| PyAst.WithInfoTwice | src/py/ast.rs:280-296 | setting the info twice keeps only the second |
| PyAst.ExprCmp | src/py/ast.rs:299-330 | `Ord for Expr`: by discriminator across variants, by payload within one, ignoring types and info except for a conversion's target type, which is compared with the order of types as written; its laws are `ExprVariantOrder`, `ExprCmpRefl`, `ExprCmpReverse`, `ExprCmpIgnoresInfo` and `ConvertDictPrefixEqual` |
| PyAst.ExprVariantOrder | src/py/ast.rs:327-328 | expressions of different variants are ordered by discriminator |
| PyAst.ExprCmpRefl | src/py/ast.rs:299-330 | every expression compares `Equal` to itself |
| PyAst.ExprsCmpRefl | src/py/ast.rs:316-317 | every expression vector compares `Equal` to itself |
| PyAst.ExprFieldsCmpRefl | src/py/ast.rs:320-321 | every field map compares `Equal` to itself |
| PyAst.ExprCmpReverse | src/py/ast.rs:299-330 | swapping the operands reverses the order |
| PyAst.ExprsCmpReverse | src/py/ast.rs:316-317 | the same for expression vectors |
| PyAst.ExprFieldsCmpReverse | src/py/ast.rs:320-321 | the same for field maps |
| PyAst.ExprCmpIgnoresInfo | src/py/ast.rs:299-330 | the order ignores source positions: `with_info` on an operand never changes a comparison |
| PyAst.ConvertDictPrefixEqual | src/py/ast.rs:325-326 | a conversion compares its target type with the order of types as written, so conversions of one expression to `Dict{}` and to `Dict{"a": Unknown}` compare `Equal` although they differ |
| PyAst.StrCmpReverse | src/py/ast.rs:303 | swapping two strings reverses their order |
| PyAst.StrCmpEqual | src/py/ast.rs:303 | two strings compare `Equal` iff they are equal |
| PyAst.IntsCmpReverse | src/py/ast.rs:96 | swapping two shapes reverses their order |
| PyAst.IntsCmpEqual | src/py/ast.rs:96 | two shapes compare `Equal` iff they are equal |
| TypeCheck.LubElemSize | src/py/type_check.rs:96-115 | `lub_elem_size`, case by case as written; characterised by `LubElemSizeSpec` |
| TypeCheck.CompatibleElemTypes | src/py/type_check.rs:117-119 | `compatible_elem_types`: whether two sizes have a least upper bound, that is whether they are in the same class (`LubElemSizeSpec`) |
| TypeCheck.LubElemSizeSpec | src/py/type_check.rs:96-115 | the least upper bound of two sizes exists iff both are booleans, both signed integers or both floats; it is then the larger in declaration order, and otherwise the error reports the given position |
| TypeCheck.LubElemSizeRefl | src/py/type_check.rs:631-636 | every size is its own least upper bound |
| TypeCheck.LubElemSizeComm | src/py/type_check.rs:638-652 | both orders fail, or both succeed with the same size |
| TypeCheck.EnsureScalarType | src/py/type_check.rs:121-139 | `ensure_scalar_type`; characterised by `EnsureScalarTypeSpec` |
| TypeCheck.AssertType | src/py/type_check.rs:141-149 | `assert_type`: passes iff the expression has exactly the expected type, failing at the expression's position |
| TypeCheck.CoerceTypeWith | src/py/type_check.rs:151-185 | `coerce_type`, with a switch between the tuple case as written and the arity-checked one; its laws are `CoerceSameType`, `CoerceScalar`, `CoerceTypeResult` and `CoerceAgrees` |
| TypeCheck.CoerceTypeAsWritten | src/py/type_check.rs:151-185 | coercion as written, which accepts a tuple literal of the wrong arity (`TupleArityMismatch`) |
| TypeCheck.CoerceType | src/py/type_check.rs:151-185 | coercion with the arity of tuple literals checked, which always yields the target type (`CoerceTypeResult`) |
| TypeCheck.EnsureScalarTypeSpec | src/py/type_check.rs:121-139 | a scalar is accepted iff its size is compatible with the expected one; the result has the expected scalar type, is the input when the sizes agree, and is wrapped in `Convert` otherwise; anything else is an error |
| TypeCheck.CoerceSameType | src/py/type_check.rs:152-153 | an expression that already has the target type is returned unchanged |
| TypeCheck.CoerceScalar | src/py/type_check.rs:158-160 | scalar-to-scalar coercion succeeds iff the sizes are compatible, and converts only when they differ |
| TypeCheck.CoerceTypeResult | src/py/type_check.rs:151-185 | with the arity of tuple literals checked, every successful coercion yields exactly the target type |
| TypeCheck.CoerceElemsResult | src/py/type_check.rs:167-176 | coercing the elements of a tuple literal of the right arity gives each element its target type |
| TypeCheck.TupleArityMismatch | src/py/type_check.rs:167-176 | as written, the literal `(1,)` coerced to a pair of 64-bit integers succeeds with a one-element tuple type; with the arity checked it is an error |
| TypeCheck.TupleExcessDropped | src/py/type_check.rs:167-176 | as written, the literal `(1, 2, 3)` coerced to a pair of 64-bit integers succeeds as `(1, 2)` with the pair type, its third element dropped; with the arity checked it is an error |
| TypeCheck.CoerceAgrees | src/py/type_check.rs:151-185 | whatever the arity-checked coercion accepts, the coercion as written accepts with the same result; the two differ only on tuple literals of the wrong arity |
| TypeCheck.CoerceElemsAgree | src/py/type_check.rs:167-176 | the same for the zipped elements of a tuple literal |
| TypeCheck.LubType | src/py/type_check.rs:191-199 | `lub_type`; characterised by `LubTypeSpec`, `LubTypeRefl` and `LubTypeComm` |
| TypeCheck.LubTypeSpec | src/py/type_check.rs:187-199 | two scalars unify to the scalar of their least upper bound size; two non-scalars unify only when equal; a scalar never unifies with a non-scalar |
| TypeCheck.LubTypeRefl | src/py/type_check.rs:191-199 | every type unifies with itself |
| TypeCheck.LubTypeComm | src/py/type_check.rs:191-199 | unification does not depend on the order of the operands |
| TypeCheck.CoerceToLub | src/py/type_check.rs:315-318 | an operand always coerces to the type it unified to |
| TypeCheck.TypeCheckBuiltin | src/py/type_check.rs:201-275 | `type_check_builtin`, case by case with its arity guards; characterised by `TypeCheckBuiltinSpec`, `TypeCheckBuiltinUnary` and `TypeCheckBuiltinBinary` |
| TypeCheck.TypeCheckBuiltinSpec | src/py/type_check.rs:201-275 | a checked builtin always has a scalar type: `atan2` a 64-bit float, `tanh` never a 16-bit float, the other float functions their float argument's type. `max`/`min`/`atan2` have both operands coerced to the result type. A conversion builtin becomes a `Convert` node. A wrong argument count is an error |
| TypeCheck.TypeCheckBuiltinUnary | src/py/type_check.rs:208-251 | `inf` with no arguments is a 64-bit float; `exp`, `log`, `cos`, `sin` and `sqrt` are accepted iff their argument is a float scalar; `tanh` iff it is a 32- or 64-bit float scalar; `abs` iff it is a signed integer or float scalar, keeping its type; a conversion iff it is a scalar |
| TypeCheck.TypeCheckBuiltinBinary | src/py/type_check.rs:253-273 | `max` and `min` are accepted iff the operands unify to a scalar type, `atan2` iff they unify to a 64-bit float; the result has the unified type and its operands are the two arguments coerced to it |
| TypeCheck.TypeCheckUnop | src/py/type_check.rs:277-306 | `type_check_unop`; characterised by `TypeCheckUnopSpec` |
| TypeCheck.TypeCheckUnopSpec | src/py/type_check.rs:277-306 | a unary operator keeps its operand's scalar type; `not` needs a boolean, bitwise negation a signed integer, minus a non-boolean scalar |
| TypeCheck.TypeCheckBinop | src/py/type_check.rs:308-369 | `type_check_binop`: unify, coerce both operands, then type the operator; characterised by `TypeCheckBinopSpec` and `BinOpTypeSpec` |
| TypeCheck.BinOpTypeSpec | src/py/type_check.rs:319-367 | comparisons need a scalar and yield a boolean; every other operator yields the unified type, which is a signed integer for integer division, remainder and the bitwise operators, a 32- or 64-bit float for powers and a boolean for `and`/`or` |
| TypeCheck.TypeCheckBinopSpec | src/py/type_check.rs:308-369 | a binary operation types iff the operand types unify and the unified type suits the operator; both operands are then coerced to the unified type, and the result type is the operator's result type for it |
| TypeCheck.TypeCheckExpr | src/py/type_check.rs:371-499 | `type_check_expr`, case by case; its laws are `TypeCheckLeaves`, `SubscriptSpec`, `SubscriptConvertsIndex`, `TensorSlicingScenario` and, through the operators, `TypeCheckUnopSpec`, `TypeCheckBinopSpec` and `TypeCheckBuiltinSpec` |
| TypeCheck.TypeCheckExprs | src/py/type_check.rs:501-508 | `type_check_exprs`: checks a list, stopping at the first error; characterised by `TypeCheckExprsEach` |
| TypeCheck.TypeCheckLeaves | src/py/type_check.rs:375-391 | a variable types iff the environment gives it a known type, which it then carries; literals get their fixed types; a `Convert` is returned unchanged |
| TypeCheck.TypeCheckExprsEach | src/py/type_check.rs:501-508 | checking a list checks every element in place and succeeds iff each does |
| TypeCheck.SubscriptSpec | src/py/type_check.rs:419-472 | subscripting with a non-string index needs a tensor target and a scalar or tuple index selecting k ≤ n dimensions; the result keeps the element size with the first k dimensions dropped, and the index is coerced to 64-bit integers; k > n is an error |
| TypeCheck.SubscriptConvertsIndex | src/py/type_check.rs:455-459 | a 32-bit integer index is wrapped in a conversion to a 64-bit integer |
| TypeCheck.TensorSlicingScenario | src/py/type_check.rs:947-976 | slicing a 5×6×4 float tensor with a pair of integers gives a vector of 4 floats, and the index keeps its pair type |
| TypeCheck.ValidateConditionType | src/py/type_check.rs:510-516 | `validate_condition_type`; characterised by `ConditionChecked` |
| TypeCheck.ConditionChecked | src/py/type_check.rs:510-516 | an `if` or `while` statement is accepted only when its checked condition is a tensor, which stays in place unchanged; a checked condition of another type is an error at the statement's position (src/py/type_check.rs:546, 552) |
| TypeCheck.TypeCheckStmt | src/py/type_check.rs:518-571 | `type_check_stmt`, case by case, with assignments coerced by the arity-checked coercion (see Left out); its laws are `TypeCheckStmtEnv`, `ForScope`, `AssignCoerces` and `ConditionChecked` |
| TypeCheck.TypeCheckStmts | src/py/type_check.rs:573-584 | `type_check_stmts`: checks the statements in order, threading the environment and stopping at the first error; characterised by `TypeCheckStmtsEnv` |
| TypeCheck.TypeCheckBody | src/py/type_check.rs:586-595 | `type_check_body`: checks the body under the parameters' environment (`ParamsEnvKeys`, `ParamsEnvSpec`) and keeps the statements (`TypeCheckBodyLength`) |
| TypeCheck.TypeCheckStmtEnv | src/py/type_check.rs:518-571 | a definition binds its id to its checked expression's type; a label around a statement succeeds only when that statement does, and passes on its environment (src/py/type_check.rs:560-568); no other statement changes the environment |
| TypeCheck.TypeCheckStmtsEnv | src/py/type_check.rs:573-584 | a checked body has one statement per input statement; the environment grows by exactly the top-level definitions and keeps every other binding |
| TypeCheck.ForScope | src/py/type_check.rs:535-544 | a loop's body is checked with the loop variable as a 64-bit integer; the environment after the loop is the one before it, and its bounds are 64-bit integers |
| TypeCheck.AssignCoerces | src/py/type_check.rs:529-534 | with the arity of tuple literals checked (the corrected coercion of the second finding), a checked assignment gives its value exactly its destination's type and leaves the environment unchanged |
| TypeCheck.ParamsEnvKeys | src/py/type_check.rs:590-592 | the parameter environment binds exactly the parameter names |
| TypeCheck.ParamsEnvSpec | src/py/type_check.rs:590-592 | each parameter name is bound to the type of its last occurrence |
| TypeCheck.TypeCheckBodyLength | src/py/type_check.rs:586-595 | a checked body has one statement per input statement |
| PrettyPrint.NewEnv | src/utils/pprint.rs:19-26 | a new environment has no strings or names, indentation 0 and increment 2, and satisfies the invariant |
| PrettyPrint.IncrIndent | src/utils/pprint.rs:28-31 | the indentation grows by the increment and nothing else changes |
| PrettyPrint.DecrIndent | src/utils/pprint.rs:33-36 | the indentation shrinks by the increment and nothing else changes |
| PrettyPrint.IndentRoundTrip | src/utils/pprint.rs:28-36 | decreasing undoes increasing, and increasing undoes decreasing |
| PrettyPrint.PrintIndent | src/utils/pprint.rs:38-40 | the indentation prints as exactly `indent` spaces |
| PrettyPrint.Spaces | src/utils/pprint.rs:39 | `n` spaces |
| PrettyPrint.Candidate | src/utils/pprint.rs:61 | the string tried on a retry: the name's string, an underscore and a random suffix; `CandidateInjective` and `CandidatesCount` say distinct suffixes give distinct strings |
| PrettyPrint.CandidateInjective | src/utils/pprint.rs:61 | distinct random suffixes give distinct retry strings |
| PrettyPrint.CandidatesCount | src/utils/pprint.rs:60-62 | the first k retry strings are k distinct strings |
| PrettyPrint.CandidatesBound | src/utils/pprint.rs:60-62 | the retry loop cannot run more times than there are strings in use |
| PrettyPrint.SubsetCard | src/utils/pprint.rs:60-62 | a subset is no larger than its superset |
| PrettyPrint.AllocFreeString | src/utils/pprint.rs:56-67 | the string returned was not in use; it is the name's own string when that is free; it is recorded as in use and as the name's string; nothing else changes; the invariant is kept |
| PrettyPrint.NamePprint | src/utils/pprint.rs:69-78 | a recorded name prints as its recorded string and leaves the environment unchanged; a new name gets a free string; either way the name ends up recorded with the printed string, and the invariant is kept |
| PrettyPrint.DistinctNamesPrint | src/utils/pprint.rs:97-107 | two distinct names print as distinct strings, the strings in use grow by two when both are new, and printing the second again gives the same string |
| PrettyPrint.Join | src/utils/pprint.rs:90 | joining n > 1 parts is joining the first n-1 parts, then the separator, then the last part |
| PrettyPrint.PprintIter | src/utils/pprint.rs:80-91 | every name ends up recorded and earlier records are kept; the output is the recorded strings of the names, in order, joined by the separator; indentation and the invariant are kept |

## Left out

- Sync: `sfold`/`sfold_result` are not shown. The model takes them to visit the immediate sub-statements in order (`If`: `thn` then `els`) and to stop at the first error.
- Sync: `GpuMap` is reduced to its three tags, each with its size. The dimension, the multiplier, `LaunchArgs` and the threads-per-block constant are not modelled. A `GpuMapping` is its list of levels.
- Sync: expressions, loop bounds and other statement data of the loop IR are not modelled; the pass never reads them.
- Sync: the source panics when it indexes an empty hierarchy slice. The model returns the error `SliceOutOfRange` instead.
- Sync: the compile error's message text is reduced to a tag telling reductions from plain loops.
- Sync: collection and elimination mutate an owned set while threading it through folds. They are modelled as functions returning the new set, which is the same value, since the set is never shared.
- Sync.EliminationExact, Sync.IdentifySyncPointsSpec, Sync.ReductionsKept: stated only for bodies in which every loop variable is bound once. Without that, the exact sets are not characterised.
- PyAst: `Name` and its order are stand-ins (a string and a symbol, ordered by string, then symbol). `utils/name.rs` is not part of this model.
- PyAst: `Info` is a stand-in holding a line and a column. `utils/info.rs` is not part of this model.
- PyAst: the `f64` payload of float literals and `f64::total_cmp` are not modelled. A float literal holds an integer key whose order stands for the total order.
- PyAst: `i64` is a subtype of the integers with the 64-bit bounds; no arithmetic on it is modelled.
- PyAst: `BTreeMap` values are modelled as entry lists in key order. The model does not enforce that the keys are sorted and distinct.
- PyAst: the `Display` implementations, `get_dict_type_fields`, `Stmt::get_info` and `FunDef` are not modelled. They are formatting or are not used by the modelled core.
- TypeCheck: the functions that consult Python objects are not modelled: `compile_elem_size`, `get_tensor_shape`, `convert_type`, `add_param_types` and `type_check` (src/py/type_check.rs:16-94, 597-605). The model starts at `type_check_body` with typed parameters.
- TypeCheck: error messages are not modelled; an error carries only the position it reports.
- TypeCheck: `type_check_stmt` inserts into an owned map, and `type_check_stmts` pushes onto an accumulator inside a fold. Both are modelled as functions returning the new environment and the checked statements.
- TypeCheck.TypeCheckStmt: checks an assignment with the arity-checked coercion, the corrected half of the second finding, so it rejects an assignment of a tuple literal of the wrong arity that src/py/type_check.rs:533 accepts. On every assignment it accepts, the coercion as written gives the same result (`TypeCheck.CoerceAgrees`). Elsewhere in the checker the target of a coercion is a scalar, the operand's own type or a tuple type of the literal's own arity, where the two versions agree.
- TypeCheck.AssignCoerces: stated of the arity-checked coercion. As written, an assignment of a tuple literal of the wrong arity succeeds with a value whose type is not the destination's.
- TypeCheck: `type_check_builtin` pops its two arguments off an owned vector. The model reads them by position.
- PrettyPrint: `rand_alphanum` and `Name::print_with_sym` are not modelled. They are given as parameters: `rand` is the sequence of random suffixes and `withSym` prints a name with its symbol.
- PrettyPrint.AllocFreeString: requires the random suffixes to be pairwise distinct, so that the retry loop provably ends. With a real random source the loop ends only with probability one.
- PrettyPrint.DecrIndent: requires the indentation to be at least one increment. In the source, subtraction below zero panics (debug builds) or wraps around (release builds).
- PrettyPrint.IncrIndent: does not model `usize` overflow of the indentation.
- PrettyPrint: the `PrettyPrint` trait and `pprint_default` are not modelled, because traits are outside this model. `pprint_iter` is modelled for names, the trait's one implementation in this file.

## Findings

| source | as written | input that shows it | evidently intended | confidence | as-written member | corrected member |
|---|---|---|---|---|---|---|
| src/py/ast.rs:104-109 | `Ord for Type` on two dictionaries folds over the zipped field pairs only, so a dictionary compares `Equal` to any dictionary that extends its fields, while the derived `PartialEq` says they differ | `Dict{}` against `Dict{"a": Unknown}` | after the common prefix, the dictionary with fewer fields is smaller, as the order of `BTreeMap` does (used for `Expr::Dict` at line 321), so that `Equal` coincides with equality | high, not executed | PyAst.DictPrefixComparesEqual | PyAst.TypeCmpEqual |
| src/py/type_check.rs:167-176 | `coerce_type` zips a tuple literal's elements with the target's element types, so a literal of the wrong arity is cut to the shorter length and succeeds: a longer literal silently loses its excess elements (`TupleExcessDropped`) | assigning `(1,)` to a variable of type tuple(int64, int64) | a tuple literal coerces only to a tuple type of the same arity, so that a coerced expression always has the target type | medium, not executed | TypeCheck.TupleArityMismatch | TypeCheck.CoerceTypeResult |

=== FILE: ast.dfy ===
/** The Python-facing AST of the compiler: src/py/ast.rs. Element sizes and
    types, the operators and builtins, expressions and statements, with the
    hand-written orders and the projections on expressions. */
module PyAst {
  import opened Results
  import opened Names

  /** Rust's `i64`. */
  newtype i64 = x: int | -0x8000_0000_0000_0000 <= x < 0x8000_0000_0000_0000

  /** Stand-in for a source position (utils/info.rs is not part of this
      model). */
  datatype Info = Info(line: nat, column: nat)

  /** `Info::default()`. */
  const DefaultInfo := Info(0, 0)

  /** A 64-bit float literal, represented by its rank under `f64::total_cmp`;
      its numeric value is not modelled. */
  type FloatKey = int

  // ---------------------------------------------------------------------
  // std::cmp::Ordering

  datatype Ordering = Less | Equal | Greater {
    /** `Ordering::then`: this ordering, unless it is `Equal`. */
    function Then(o: Ordering): Ordering {
      if this == Equal then o else this
    }

    /** `Ordering::reverse`. */
    function Reverse(): Ordering {
      match this
      case Less => Greater
      case Equal => Equal
      case Greater => Less
    }
  }

  function IntCmp(a: int, b: int): Ordering {
    if a < b then Less else if a == b then Equal else Greater
  }

  /** `false < true`. */
  function BoolCmp(a: bool, b: bool): Ordering {
    IntCmp(if a then 1 else 0, if b then 1 else 0)
  }

  /** Lexicographic order of strings, character by character. */
  function StrCmp(a: string, b: string): Ordering {
    if a == [] then (if b == [] then Equal else Less)
    else if b == [] then Greater
    else IntCmp(a[0] as int, b[0] as int).Then(StrCmp(a[1..], b[1..]))
  }

  /** Lexicographic order of `Vec<i64>`. */
  function IntsCmp(a: seq<i64>, b: seq<i64>): Ordering {
    if a == [] then (if b == [] then Equal else Less)
    else if b == [] then Greater
    else IntCmp(a[0] as int, b[0] as int).Then(IntsCmp(a[1..], b[1..]))
  }

  /** Stand-in for the order of `Name` (utils/name.rs is not part of this
      model): by string, then by symbol. */
  function NameCmp(a: Name, b: Name): Ordering {
    StrCmp(a.str, b.str).Then(IntCmp(a.sym, b.sym))
  }

  lemma ThenReverse(a: Ordering, b: Ordering)
    ensures a.Then(b).Reverse() == a.Reverse().Then(b.Reverse())
  {
  }

  lemma {:induction false} StrCmpReverse(a: string, b: string)
    ensures StrCmp(b, a) == StrCmp(a, b).Reverse()
  {
    if a != [] && b != [] {
      StrCmpReverse(a[1..], b[1..]);
    }
  }

  lemma {:induction false} StrCmpEqual(a: string, b: string)
    ensures StrCmp(a, b) == Equal <==> a == b
  {
    if a != [] && b != [] {
      StrCmpEqual(a[1..], b[1..]);
      if a[0] == b[0] && a[1..] == b[1..] {
        assert a == [a[0]] + a[1..] && b == [b[0]] + b[1..];
      }
    }
  }

  lemma {:induction false} IntsCmpReverse(a: seq<i64>, b: seq<i64>)
    ensures IntsCmp(b, a) == IntsCmp(a, b).Reverse()
  {
    if a != [] && b != [] {
      IntsCmpReverse(a[1..], b[1..]);
    }
  }

  lemma {:induction false} IntsCmpEqual(a: seq<i64>, b: seq<i64>)
    ensures IntsCmp(a, b) == Equal <==> a == b
  {
    if a != [] && b != [] {
      IntsCmpEqual(a[1..], b[1..]);
      if a[0] == b[0] && a[1..] == b[1..] {
        assert a == [a[0]] + a[1..] && b == [b[0]] + b[1..];
      }
    }
  }

  // ---------------------------------------------------------------------
  // Element sizes (src/py/ast.rs:11-30)

  datatype ElemSize = Bool | I8 | I16 | I32 | I64 | F16 | F32 | F64 {
    /** Position in the declaration order, which the derived order follows. */
    function Rank(): nat {
      match this
      case Bool => 0
      case I8 => 1
      case I16 => 2
      case I32 => 3
      case I64 => 4
      case F16 => 5
      case F32 => 6
      case F64 => 7
    }

    predicate IsSignedInteger() {
      match this
      case I8 | I16 | I32 | I64 => true
      case _ => false
    }

    predicate IsFloatingPoint() {
      match this
      case F16 | F32 | F64 => true
      case _ => false
    }
  }

  /** The derived order of element sizes. */
  function ElemSizeCmp(a: ElemSize, b: ElemSize): Ordering {
    IntCmp(a.Rank(), b.Rank())
  }

  /** The integer and float classes are disjoint, `Bool` is in neither, and
      every other size is in one of them. */
  lemma ElemSizeClasses(sz: ElemSize)
    ensures !(sz.IsSignedInteger() && sz.IsFloatingPoint())
    ensures sz == ElemSize.Bool <==> !sz.IsSignedInteger() && !sz.IsFloatingPoint()
  {
  }

  /** Ranks tell sizes apart. */
  lemma RankInjective(a: ElemSize, b: ElemSize)
    ensures a.Rank() == b.Rank() <==> a == b
  {
  }

  // ---------------------------------------------------------------------
  // Types (src/py/ast.rs:47-115)

  /** An entry of a `BTreeMap<String, V>`; a map is its entries in key
      order. */
  datatype Entry<V> = Entry(key: string, value: V)

  /** `BTreeMap::get`: the value stored under `k`, if any. */
  function Lookup<V>(fields: seq<Entry<V>>, k: string): (r: Option<V>)
    ensures r.Some? <==> exists n :: 0 <= n < |fields| && fields[n].key == k
    ensures r.Some? ==> exists n :: 0 <= n < |fields| && fields[n] == Entry(k, r.value)
  {
    if fields == [] then None
    else if fields[0].key == k then Some(fields[0].value)
    else
      var r := Lookup(fields[1..], k);
      assert r.Some? ==> exists n :: 0 <= n < |fields[1..]| && fields[1..][n] == Entry(k, r.value);
      r
  }

  datatype Type =
    | String
    | Tensor(sz: ElemSize, shape: seq<i64>)
    | Tuple(elems: seq<Type>)
    | Dict(fields: seq<Entry<Type>>)
    | Unknown

  /** `Type::get_scalar_elem_size`: the element size of a tensor of rank 0. */
  function GetScalarElemSize(t: Type): Option<ElemSize> {
    match t
    case Tensor(sz, shape) => if |shape| == 0 then Some(sz) else None
    case _ => None
  }

  predicate IsBoolean(t: Type) {
    var sz := GetScalarElemSize(t);
    sz.Some? && sz.value == ElemSize.Bool
  }

  predicate IsSignedInteger(t: Type) {
    var sz := GetScalarElemSize(t);
    sz.Some? && sz.value.IsSignedInteger()
  }

  predicate IsFloatingPoint(t: Type) {
    var sz := GetScalarElemSize(t);
    sz.Some? && sz.value.IsFloatingPoint()
  }

  /** The scalar element size is defined exactly for rank-0 tensors, and the
      type predicates hold only for scalars of the matching class. */
  lemma ScalarElemSize(t: Type, sz: ElemSize)
    ensures GetScalarElemSize(t) == Some(sz) <==> t == Tensor(sz, [])
    ensures IsBoolean(t) <==> t == Tensor(ElemSize.Bool, [])
    ensures IsSignedInteger(t) <==> t.Tensor? && t.shape == [] && t.sz.IsSignedInteger()
    ensures IsFloatingPoint(t) <==> t.Tensor? && t.shape == [] && t.sz.IsFloatingPoint()
  {
  }

  /** The variant order String < Tensor < Tuple < Dict < Unknown. */
  function VariantRank(t: Type): nat {
    match t
    case String => 0
    case Tensor(_, _) => 1
    case Tuple(_) => 2
    case Dict(_) => 3
    case Unknown => 4
  }

  /** `Ord for Type` (src/py/ast.rs:88-115). With `compareLengths` false this
      is the order as written, whose dictionary case folds over the zipped
      field pairs only; with it true, dictionaries that agree on their common
      prefix are then ordered by their number of fields, as the order of
      `BTreeMap` itself does. */
  function TypeCmpWith(compareLengths: bool, a: Type, b: Type): Ordering
    decreases a
  {
    match (a, b)
    case (String, String) => Equal
    case (String, _) => Less
    case (Tensor(_, _), String) => Greater
    case (Tensor(lsz, lsh), Tensor(rsz, rsh)) => ElemSizeCmp(lsz, rsz).Then(IntsCmp(lsh, rsh))
    case (Tensor(_, _), _) => Less
    case (Tuple(_), Dict(_)) => Less
    case (Tuple(_), Unknown) => Less
    case (Tuple(ls), Tuple(rs)) => TypesCmpWith(compareLengths, ls, rs)
    case (Tuple(_), _) => Greater
    case (Dict(_), Unknown) => Less
    case (Dict(lfs), Dict(rfs)) =>
      var zipped := FieldsFold(compareLengths, lfs, rfs, Equal);
      if compareLengths then zipped.Then(IntCmp(|lfs|, |rfs|)) else zipped
    case (Dict(_), _) => Greater
    case (Unknown, Unknown) => Equal
    case (Unknown, _) => Greater
  }

  /** Lexicographic order of `Vec<Type>`. */
  function TypesCmpWith(compareLengths: bool, ls: seq<Type>, rs: seq<Type>): Ordering
    decreases ls
  {
    if ls == [] then (if rs == [] then Equal else Less)
    else if rs == [] then Greater
    else TypeCmpWith(compareLengths, ls[0], rs[0]).Then(TypesCmpWith(compareLengths, ls[1..], rs[1..]))
  }

  /** The fold over the zipped field pairs: each pair refines `acc` by key,
      then by value. */
  function FieldsFold(compareLengths: bool, ls: seq<Entry<Type>>, rs: seq<Entry<Type>>, acc: Ordering): Ordering
    decreases ls
  {
    if ls == [] || rs == [] then acc
    else
      assert ls[0] in ls;
      var acc' := acc.Then(StrCmp(ls[0].key, rs[0].key)).Then(TypeCmpWith(compareLengths, ls[0].value, rs[0].value));
      FieldsFold(compareLengths, ls[1..], rs[1..], acc')
  }

  /** The order of types as the source writes it. */
  function TypeCmpAsWritten(a: Type, b: Type): Ordering {
    TypeCmpWith(false, a, b)
  }

  /** The order of types with the dictionary case corrected. */
  function TypeCmp(a: Type, b: Type): Ordering {
    TypeCmpWith(true, a, b)
  }

  /** Across variants, types are ordered by variant alone. */
  lemma TypeVariantOrder(compareLengths: bool, a: Type, b: Type)
    requires VariantRank(a) != VariantRank(b)
    ensures TypeCmpWith(compareLengths, a, b) == IntCmp(VariantRank(a), VariantRank(b))
  {
  }

  /** Tensors are ordered by element size first; only tensors of the same
      element size are ordered by shape. */
  lemma TensorOrder(compareLengths: bool, lsz: ElemSize, lsh: seq<i64>, rsz: ElemSize, rsh: seq<i64>)
    ensures lsz.Rank() < rsz.Rank() ==> TypeCmpWith(compareLengths, Tensor(lsz, lsh), Tensor(rsz, rsh)) == Less
    ensures lsz == rsz ==> TypeCmpWith(compareLengths, Tensor(lsz, lsh), Tensor(rsz, rsh)) == IntsCmp(lsh, rsh)
  {
  }

  /** A tuple is below every tuple it is a proper prefix of. */
  lemma {:induction false} TuplePrefixOrder(compareLengths: bool, ls: seq<Type>, extra: seq<Type>)
    requires extra != []
    ensures TypeCmpWith(compareLengths, Type.Tuple(ls), Type.Tuple(ls + extra)) == Less
  {
    TypesPrefixOrder(compareLengths, ls, extra);
  }

  lemma {:induction false} TypesPrefixOrder(compareLengths: bool, ls: seq<Type>, extra: seq<Type>)
    requires extra != []
    ensures TypesCmpWith(compareLengths, ls, ls + extra) == Less
  {
    if ls != [] {
      TypeCmpRefl(compareLengths, ls[0]);
      assert (ls + extra)[1..] == ls[1..] + extra;
      TypesPrefixOrder(compareLengths, ls[1..], extra);
    }
  }

  /** Every type is `Equal` to itself, in both versions of the order. */
  lemma {:induction false} TypeCmpRefl(compareLengths: bool, a: Type)
    decreases a
    ensures TypeCmpWith(compareLengths, a, a) == Equal
  {
    match a
    case String =>
    case Tensor(sz, shape) => IntsCmpEqual(shape, shape);
    case Tuple(elems) => TypesCmpRefl(compareLengths, elems);
    case Dict(fields) => FieldsFoldRefl(compareLengths, fields);
    case Unknown =>
  }

  lemma {:induction false} TypesCmpRefl(compareLengths: bool, ls: seq<Type>)
    decreases ls
    ensures TypesCmpWith(compareLengths, ls, ls) == Equal
  {
    if ls != [] {
      TypeCmpRefl(compareLengths, ls[0]);
      TypesCmpRefl(compareLengths, ls[1..]);
    }
  }

  lemma {:induction false} FieldsFoldRefl(compareLengths: bool, ls: seq<Entry<Type>>)
    decreases ls
    ensures FieldsFold(compareLengths, ls, ls, Equal) == Equal
  {
    if ls != [] {
      assert ls[0] in ls;
      StrCmpEqual(ls[0].key, ls[0].key);
      TypeCmpRefl(compareLengths, ls[0].value);
      FieldsFoldRefl(compareLengths, ls[1..]);
    }
  }

  /** Swapping the operands reverses the result, in both versions. */
  lemma {:induction false} TypeCmpReverse(compareLengths: bool, a: Type, b: Type)
    decreases a
    ensures TypeCmpWith(compareLengths, b, a) == TypeCmpWith(compareLengths, a, b).Reverse()
  {
    match (a, b)
    case (Tensor(lsz, lsh), Tensor(rsz, rsh)) =>
      IntsCmpReverse(lsh, rsh);
      ThenReverse(ElemSizeCmp(lsz, rsz), IntsCmp(lsh, rsh));
    case (Tuple(ls), Tuple(rs)) => TypesCmpReverse(compareLengths, ls, rs);
    case (Dict(lfs), Dict(rfs)) =>
      FieldsFoldReverse(compareLengths, lfs, rfs, Equal);
      ThenReverse(FieldsFold(compareLengths, lfs, rfs, Equal), IntCmp(|lfs|, |rfs|));
    case (_, _) =>
  }

  lemma {:induction false} TypesCmpReverse(compareLengths: bool, ls: seq<Type>, rs: seq<Type>)
    decreases ls
    ensures TypesCmpWith(compareLengths, rs, ls) == TypesCmpWith(compareLengths, ls, rs).Reverse()
  {
    if ls != [] && rs != [] {
      TypeCmpReverse(compareLengths, ls[0], rs[0]);
      TypesCmpReverse(compareLengths, ls[1..], rs[1..]);
      ThenReverse(TypeCmpWith(compareLengths, ls[0], rs[0]), TypesCmpWith(compareLengths, ls[1..], rs[1..]));
    }
  }

  lemma {:induction false} FieldsFoldReverse(compareLengths: bool, ls: seq<Entry<Type>>, rs: seq<Entry<Type>>, acc: Ordering)
    decreases ls
    ensures FieldsFold(compareLengths, rs, ls, acc.Reverse()) == FieldsFold(compareLengths, ls, rs, acc).Reverse()
  {
    if ls != [] && rs != [] {
      assert ls[0] in ls;
      var k, v := StrCmp(ls[0].key, rs[0].key), TypeCmpWith(compareLengths, ls[0].value, rs[0].value);
      StrCmpReverse(ls[0].key, rs[0].key);
      TypeCmpReverse(compareLengths, ls[0].value, rs[0].value);
      ThenReverse(acc, k);
      ThenReverse(acc.Then(k), v);
      FieldsFoldReverse(compareLengths, ls[1..], rs[1..], acc.Then(k).Then(v));
    }
  }

  /** The corrected order is consistent with equality: two types compare
      `Equal` exactly when they are the same type. */
  lemma {:induction false} TypeCmpEqual(a: Type, b: Type)
    decreases a
    ensures TypeCmp(a, b) == Equal <==> a == b
  {
    match (a, b)
    case (Tensor(lsz, lsh), Tensor(rsz, rsh)) =>
      IntsCmpEqual(lsh, rsh);
      RankInjective(lsz, rsz);
    case (Tuple(ls), Tuple(rs)) => TypesCmpEqual(ls, rs);
    case (Dict(lfs), Dict(rfs)) =>
      FieldsFoldEqual(lfs, rfs, Equal);
      var m := if |lfs| < |rfs| then |lfs| else |rfs|;
      if |lfs| == |rfs| && lfs[..m] == rfs[..m] {
        assert lfs == lfs[..m] && rfs == rfs[..m];
      }
    case (_, _) =>
  }

  lemma {:induction false} TypesCmpEqual(ls: seq<Type>, rs: seq<Type>)
    decreases ls
    ensures TypesCmpWith(true, ls, rs) == Equal <==> ls == rs
  {
    if ls != [] && rs != [] {
      TypeCmpEqual(ls[0], rs[0]);
      TypesCmpEqual(ls[1..], rs[1..]);
      if ls[0] == rs[0] && ls[1..] == rs[1..] {
        assert ls == [ls[0]] + ls[1..] && rs == [rs[0]] + rs[1..];
      }
    }
  }

  /** The fold ends `Equal` exactly when it starts `Equal` and the zipped
      pairs are equal. */
  lemma {:induction false} FieldsFoldEqual(ls: seq<Entry<Type>>, rs: seq<Entry<Type>>, acc: Ordering)
    decreases ls
    ensures var m := if |ls| < |rs| then |ls| else |rs|;
      FieldsFold(true, ls, rs, acc) == Equal <==> acc == Equal && ls[..m] == rs[..m]
  {
    var m := if |ls| < |rs| then |ls| else |rs|;
    if ls != [] && rs != [] {
      assert ls[0] in ls;
      var k, v := StrCmp(ls[0].key, rs[0].key), TypeCmpWith(true, ls[0].value, rs[0].value);
      StrCmpEqual(ls[0].key, rs[0].key);
      TypeCmpEqual(ls[0].value, rs[0].value);
      FieldsFoldEqual(ls[1..], rs[1..], acc.Then(k).Then(v));
      assert ls[..m] == [ls[0]] + ls[1..][..m - 1];
      assert rs[..m] == [rs[0]] + rs[1..][..m - 1];
    }
  }

  /** As written, a dictionary type compares `Equal` to every dictionary type
      that extends its fields, although the two types differ: the order is
      not consistent with equality. */
  lemma {:induction false} DictPrefixComparesEqual(fields: seq<Entry<Type>>, extra: seq<Entry<Type>>)
    ensures TypeCmpAsWritten(Type.Dict(fields), Type.Dict(fields + extra)) == Equal
    ensures extra != [] ==> Type.Dict(fields) != Type.Dict(fields + extra)
  {
    DictPrefixFold(fields, extra);
    if extra != [] {
      assert |fields + extra| != |fields|;
    }
  }

  lemma {:induction false} DictPrefixFold(fields: seq<Entry<Type>>, extra: seq<Entry<Type>>)
    decreases fields
    ensures FieldsFold(false, fields, fields + extra, Equal) == Equal
  {
    if fields != [] {
      assert fields[0] in fields;
      StrCmpEqual(fields[0].key, fields[0].key);
      TypeCmpRefl(false, fields[0].value);
      assert (fields + extra)[1..] == fields[1..] + extra;
      DictPrefixFold(fields[1..], extra);
    } else if extra == [] {
    }
  }

  // ---------------------------------------------------------------------
  // Operators and builtins (src/py/ast.rs:151-197)

  datatype Builtin =
    | Exp | Inf | Log | Max | Min | Abs | Cos | Sin | Sqrt | Tanh | Atan2
    | Convert(sz: ElemSize) | Label | GpuContext

  datatype UnOp = Sub | Not | BitNeg

  datatype BinOp =
    | Add | Sub | Mul | FloorDiv | Div | Mod | Pow | And | Or
    | BitAnd | BitOr | BitXor | BitShl | BitShr | Eq | Neq | Leq | Geq | Lt | Gt

  function BuiltinRank(f: Builtin): nat {
    match f
    case Exp => 0
    case Inf => 1
    case Log => 2
    case Max => 3
    case Min => 4
    case Abs => 5
    case Cos => 6
    case Sin => 7
    case Sqrt => 8
    case Tanh => 9
    case Atan2 => 10
    case Convert(_) => 11
    case Label => 12
    case GpuContext => 13
  }

  /** The derived order of builtins: by variant, then by the size of a
      conversion. */
  function BuiltinCmp(a: Builtin, b: Builtin): Ordering {
    if a.Convert? && b.Convert? then ElemSizeCmp(a.sz, b.sz)
    else IntCmp(BuiltinRank(a), BuiltinRank(b))
  }

  function UnOpRank(op: UnOp): nat {
    match op
    case Sub => 0
    case Not => 1
    case BitNeg => 2
  }

  function BinOpRank(op: BinOp): nat {
    match op
    case Add => 0
    case Sub => 1
    case Mul => 2
    case FloorDiv => 3
    case Div => 4
    case Mod => 5
    case Pow => 6
    case And => 7
    case Or => 8
    case BitAnd => 9
    case BitOr => 10
    case BitXor => 11
    case BitShl => 12
    case BitShr => 13
    case Eq => 14
    case Neq => 15
    case Leq => 16
    case Geq => 17
    case Lt => 18
    case Gt => 19
  }

  // ---------------------------------------------------------------------
  // Expressions (src/py/ast.rs:226-398)

  datatype Expr =
    | Var(id: Name, ty: Type, i: Info)
    | String(s: string, ty: Type, i: Info)
    | Bool(b: bool, ty: Type, i: Info)
    | Int(n: i64, ty: Type, i: Info)
    | Float(f: FloatKey, ty: Type, i: Info)
    | UnOp(unOp: UnOp, arg: Expr, ty: Type, i: Info)
    | BinOp(lhs: Expr, binOp: BinOp, rhs: Expr, ty: Type, i: Info)
    | IfExpr(cond: Expr, thn: Expr, els: Expr, ty: Type, i: Info)
    | Subscript(target: Expr, idx: Expr, ty: Type, i: Info)
    | Tuple(elems: seq<Expr>, ty: Type, i: Info)
    | Dict(fields: seq<Entry<Expr>>, ty: Type, i: Info)
    | Builtin(func: Builtin, args: seq<Expr>, ty: Type, i: Info)
    | Convert(e: Expr, ty: Type)

  /** `Expr::get_type`: every variant carries its type. */
  function GetType(x: Expr): Type {
    x.ty
  }

  /** `Expr::discriminator`: the variant's position in the declaration. */
  function Discriminator(x: Expr): nat {
    match x
    case Var(_, _, _) => 0
    case String(_, _, _) => 1
    case Bool(_, _, _) => 2
    case Int(_, _, _) => 3
    case Float(_, _, _) => 4
    case UnOp(_, _, _, _) => 5
    case BinOp(_, _, _, _, _) => 6
    case IfExpr(_, _, _, _, _) => 7
    case Subscript(_, _, _, _) => 8
    case Tuple(_, _, _) => 9
    case Dict(_, _, _) => 10
    case Builtin(_, _, _, _) => 11
    case Convert(_, _) => 12
  }

  /** `Expr::with_info`: replaces the info of a node; a conversion, which has
      none, passes it to the converted expression. */
  function WithInfo(x: Expr, i: Info): Expr {
    match x
    case Var(id, ty, _) => Expr.Var(id, ty, i)
    case String(s, ty, _) => Expr.String(s, ty, i)
    case Bool(b, ty, _) => Expr.Bool(b, ty, i)
    case Int(n, ty, _) => Expr.Int(n, ty, i)
    case Float(f, ty, _) => Expr.Float(f, ty, i)
    case UnOp(op, arg, ty, _) => Expr.UnOp(op, arg, ty, i)
    case BinOp(lhs, op, rhs, ty, _) => Expr.BinOp(lhs, op, rhs, ty, i)
    case IfExpr(cond, thn, els, ty, _) => Expr.IfExpr(cond, thn, els, ty, i)
    case Subscript(target, idx, ty, _) => Expr.Subscript(target, idx, ty, i)
    case Tuple(elems, ty, _) => Expr.Tuple(elems, ty, i)
    case Dict(fields, ty, _) => Expr.Dict(fields, ty, i)
    case Builtin(func, args, ty, _) => Expr.Builtin(func, args, ty, i)
    case Convert(inner, ty) => Expr.Convert(WithInfo(inner, i), ty)
  }

  /** `InfoNode::get_info` for expressions. */
  function GetInfo(x: Expr): Info {
    match x
    case Convert(inner, _) => GetInfo(inner)
    case _ => x.i
  }

  /** Both operands are of the same variant. */
  predicate SameVariant(a: Expr, b: Expr) {
    || (a.Var? && b.Var?) || (a.String? && b.String?) || (a.Bool? && b.Bool?)
    || (a.Int? && b.Int?) || (a.Float? && b.Float?) || (a.UnOp? && b.UnOp?)
    || (a.BinOp? && b.BinOp?) || (a.IfExpr? && b.IfExpr?) || (a.Subscript? && b.Subscript?)
    || (a.Tuple? && b.Tuple?) || (a.Dict? && b.Dict?) || (a.Builtin? && b.Builtin?)
    || (a.Convert? && b.Convert?)
  }

  /** The discriminator is below 13 and tells the variants apart. */
  lemma DiscriminatorInjective(a: Expr, b: Expr)
    ensures Discriminator(a) < 13
    ensures Discriminator(a) == Discriminator(b) <==> SameVariant(a, b)
  {
  }

  /** Replacing the info keeps the type and the variant. */
  lemma {:induction false} WithInfoKeepsType(x: Expr, i: Info)
    ensures GetType(WithInfo(x, i)) == GetType(x)
    ensures Discriminator(WithInfo(x, i)) == Discriminator(x)
  {
  }

  /** The info read back is the info just set, even through conversions. */
  lemma {:induction false} GetInfoWithInfo(x: Expr, i: Info)
    ensures GetInfo(WithInfo(x, i)) == i
  {
    match x
    case Convert(inner, _) => GetInfoWithInfo(inner, i);
    case _ =>
  }

  /** Setting the info twice keeps only the second. */
  lemma {:induction false} WithInfoTwice(x: Expr, i: Info, j: Info)
    ensures WithInfo(WithInfo(x, i), j) == WithInfo(x, j)
  {
    match x
    case Convert(inner, _) => WithInfoTwice(inner, i, j);
    case _ =>
  }

  /** `Ord for Expr` (src/py/ast.rs:299-330): nodes of the same variant are
      ordered by their payload, ignoring their type and info (except for a
      conversion, whose target type is compared with the order of types as
      written); nodes of different
      variants are ordered by discriminator. */
  function ExprCmp(a: Expr, b: Expr): Ordering
    decreases a
  {
    if Discriminator(a) != Discriminator(b) then IntCmp(Discriminator(a), Discriminator(b))
    else match a
    case Var(id, _, _) => NameCmp(id, b.id)
    case String(s, _, _) => StrCmp(s, b.s)
    case Bool(v, _, _) => BoolCmp(v, b.b)
    case Int(n, _, _) => IntCmp(n as int, b.n as int)
    case Float(f, _, _) => IntCmp(f, b.f)
    case UnOp(op, arg, _, _) => IntCmp(UnOpRank(op), UnOpRank(b.unOp)).Then(ExprCmp(arg, b.arg))
    case BinOp(lhs, op, rhs, _, _) =>
      ExprCmp(lhs, b.lhs).Then(IntCmp(BinOpRank(op), BinOpRank(b.binOp))).Then(ExprCmp(rhs, b.rhs))
    case IfExpr(cond, thn, els, _, _) =>
      ExprCmp(cond, b.cond).Then(ExprCmp(thn, b.thn)).Then(ExprCmp(els, b.els))
    case Subscript(target, idx, _, _) => ExprCmp(target, b.target).Then(ExprCmp(idx, b.idx))
    case Tuple(elems, _, _) => ExprsCmp(elems, b.elems)
    case Dict(fields, _, _) => ExprFieldsCmp(fields, b.fields)
    case Builtin(func, args, _, _) => BuiltinCmp(func, b.func).Then(ExprsCmp(args, b.args))
    case Convert(e, ty) => ExprCmp(e, b.e).Then(TypeCmpAsWritten(ty, b.ty))
  }

  /** Lexicographic order of `Vec<Expr>`. */
  function ExprsCmp(ls: seq<Expr>, rs: seq<Expr>): Ordering
    decreases ls
  {
    if ls == [] then (if rs == [] then Equal else Less)
    else if rs == [] then Greater
    else ExprCmp(ls[0], rs[0]).Then(ExprsCmp(ls[1..], rs[1..]))
  }

  /** The order of `BTreeMap<String, Expr>`: lexicographic over the
      (key, value) entries. */
  function ExprFieldsCmp(ls: seq<Entry<Expr>>, rs: seq<Entry<Expr>>): Ordering
    decreases ls
  {
    if ls == [] then (if rs == [] then Equal else Less)
    else if rs == [] then Greater
    else
      assert ls[0] in ls;
      StrCmp(ls[0].key, rs[0].key).Then(ExprCmp(ls[0].value, rs[0].value)).Then(ExprFieldsCmp(ls[1..], rs[1..]))
  }

  /** Expressions of different variants are ordered by discriminator. */
  lemma ExprVariantOrder(a: Expr, b: Expr)
    requires !SameVariant(a, b)
    ensures ExprCmp(a, b) == IntCmp(Discriminator(a), Discriminator(b))
  {
    DiscriminatorInjective(a, b);
  }

  /** Every expression is `Equal` to itself. */
  lemma {:induction false} ExprCmpRefl(a: Expr)
    decreases a
    ensures ExprCmp(a, a) == Equal
  {
    match a
    case Var(id, _, _) => StrCmpEqual(id.str, id.str);
    case String(s, _, _) => StrCmpEqual(s, s);
    case Bool(_, _, _) =>
    case Int(_, _, _) =>
    case Float(_, _, _) =>
    case UnOp(_, arg, _, _) => ExprCmpRefl(arg);
    case BinOp(lhs, _, rhs, _, _) => ExprCmpRefl(lhs); ExprCmpRefl(rhs);
    case IfExpr(cond, thn, els, _, _) => ExprCmpRefl(cond); ExprCmpRefl(thn); ExprCmpRefl(els);
    case Subscript(target, idx, _, _) => ExprCmpRefl(target); ExprCmpRefl(idx);
    case Tuple(elems, _, _) => ExprsCmpRefl(elems);
    case Dict(fields, _, _) => ExprFieldsCmpRefl(fields);
    case Builtin(func, args, _, _) => ExprsCmpRefl(args);
    case Convert(inner, ty) => ExprCmpRefl(inner); TypeCmpRefl(false, ty);
  }

  lemma {:induction false} ExprsCmpRefl(ls: seq<Expr>)
    decreases ls
    ensures ExprsCmp(ls, ls) == Equal
  {
    if ls != [] {
      ExprCmpRefl(ls[0]);
      ExprsCmpRefl(ls[1..]);
    }
  }

  lemma {:induction false} ExprFieldsCmpRefl(ls: seq<Entry<Expr>>)
    decreases ls
    ensures ExprFieldsCmp(ls, ls) == Equal
  {
    if ls != [] {
      assert ls[0] in ls;
      StrCmpEqual(ls[0].key, ls[0].key);
      ExprCmpRefl(ls[0].value);
      ExprFieldsCmpRefl(ls[1..]);
    }
  }

  /** Swapping the operands reverses the result. */
  lemma {:induction false} ExprCmpReverse(a: Expr, b: Expr)
    decreases a
    ensures ExprCmp(b, a) == ExprCmp(a, b).Reverse()
  {
    if Discriminator(a) == Discriminator(b) {
      match a
      case Var(id, _, _) =>
        StrCmpReverse(id.str, b.id.str);
        ThenReverse(StrCmp(id.str, b.id.str), IntCmp(id.sym, b.id.sym));
      case String(s, _, _) => StrCmpReverse(s, b.s);
      case Bool(_, _, _) =>
      case Int(_, _, _) =>
      case Float(_, _, _) =>
      case UnOp(op, arg, _, _) =>
        ExprCmpReverse(arg, b.arg);
        ThenReverse(IntCmp(UnOpRank(op), UnOpRank(b.unOp)), ExprCmp(arg, b.arg));
      case BinOp(lhs, op, rhs, _, _) =>
        ExprCmpReverse(lhs, b.lhs);
        ExprCmpReverse(rhs, b.rhs);
        var l, o := ExprCmp(lhs, b.lhs), IntCmp(BinOpRank(op), BinOpRank(b.binOp));
        ThenReverse(l, o);
        ThenReverse(l.Then(o), ExprCmp(rhs, b.rhs));
      case IfExpr(cond, thn, els, _, _) =>
        ExprCmpReverse(cond, b.cond);
        ExprCmpReverse(thn, b.thn);
        ExprCmpReverse(els, b.els);
        ThenReverse(ExprCmp(cond, b.cond), ExprCmp(thn, b.thn));
        ThenReverse(ExprCmp(cond, b.cond).Then(ExprCmp(thn, b.thn)), ExprCmp(els, b.els));
      case Subscript(target, idx, _, _) =>
        ExprCmpReverse(target, b.target);
        ExprCmpReverse(idx, b.idx);
        ThenReverse(ExprCmp(target, b.target), ExprCmp(idx, b.idx));
      case Tuple(elems, _, _) => ExprsCmpReverse(elems, b.elems);
      case Dict(fields, _, _) => ExprFieldsCmpReverse(fields, b.fields);
      case Builtin(func, args, _, _) =>
        ExprsCmpReverse(args, b.args);
        ThenReverse(BuiltinCmp(func, b.func), ExprsCmp(args, b.args));
      case Convert(e, ty) =>
        ExprCmpReverse(e, b.e);
        TypeCmpReverse(false, ty, b.ty);
        ThenReverse(ExprCmp(e, b.e), TypeCmpAsWritten(ty, b.ty));
    }
  }

  lemma {:induction false} ExprsCmpReverse(ls: seq<Expr>, rs: seq<Expr>)
    decreases ls
    ensures ExprsCmp(rs, ls) == ExprsCmp(ls, rs).Reverse()
  {
    if ls != [] && rs != [] {
      ExprCmpReverse(ls[0], rs[0]);
      ExprsCmpReverse(ls[1..], rs[1..]);
      ThenReverse(ExprCmp(ls[0], rs[0]), ExprsCmp(ls[1..], rs[1..]));
    }
  }

  lemma {:induction false} ExprFieldsCmpReverse(ls: seq<Entry<Expr>>, rs: seq<Entry<Expr>>)
    decreases ls
    ensures ExprFieldsCmp(rs, ls) == ExprFieldsCmp(ls, rs).Reverse()
  {
    if ls != [] && rs != [] {
      assert ls[0] in ls;
      var k, v := StrCmp(ls[0].key, rs[0].key), ExprCmp(ls[0].value, rs[0].value);
      StrCmpReverse(ls[0].key, rs[0].key);
      ExprCmpReverse(ls[0].value, rs[0].value);
      ExprFieldsCmpReverse(ls[1..], rs[1..]);
      ThenReverse(k, v);
      ThenReverse(k.Then(v), ExprFieldsCmp(ls[1..], rs[1..]));
    }
  }

  /** The order ignores source positions: replacing the info of an operand
      never changes a comparison. */
  lemma {:induction false} ExprCmpIgnoresInfo(a: Expr, i: Info, b: Expr)
    decreases a
    ensures ExprCmp(WithInfo(a, i), b) == ExprCmp(a, b)
  {
    match a
    case Convert(inner, _) =>
      if b.Convert? {
        ExprCmpIgnoresInfo(inner, i, b.e);
      }
    case _ =>
  }

  /** A conversion compares its target type with the order as written, so
      two conversions of the same expression to a dictionary type and to an
      extension of it compare `Equal` although they differ. */
  lemma ConvertDictPrefixEqual(e: Expr, fields: seq<Entry<Type>>, extra: seq<Entry<Type>>)
    ensures ExprCmp(Expr.Convert(e, Type.Dict(fields)), Expr.Convert(e, Type.Dict(fields + extra))) == Equal
    ensures extra != [] ==> Expr.Convert(e, Type.Dict(fields)) != Expr.Convert(e, Type.Dict(fields + extra))
  {
    ExprCmpRefl(e);
    DictPrefixComparesEqual(fields, extra);
  }

  // ---------------------------------------------------------------------
  // Statements and parameters (src/py/ast.rs:401-431)

  datatype Stmt =
    | Definition(ty: Type, id: Name, expr: Expr, i: Info)
    | Assign(dst: Expr, expr: Expr, i: Info)
    | For(loopVar: Name, lo: Expr, hi: Expr, step: i64, body: seq<Stmt>, i: Info)
    | If(cond: Expr, thn: seq<Stmt>, els: seq<Stmt>, i: Info)
    | While(cond: Expr, body: seq<Stmt>, i: Info)
    | WithGpuContext(body: seq<Stmt>, i: Info)
    | Label(labelName: string, assoc: Option<Stmt>, i: Info)

  datatype Param = Param(id: Name, ty: Type, i: Info)
}

=== FILE: names.dfy ===
/** Stand-in for the compiler's `Name` (utils/name.rs is not part of this
    model): a printable string plus a symbol that tells apart names which
    print the same. Two names are equal when both parts are. */
module Names {

  datatype Name = Name(str: string, sym: nat)
}

=== FILE: pprint.dfy ===
/** The pretty-printing environment: src/utils/pprint.rs. It hands out a
    distinct printed string to every variable name it meets and keeps the
    current indentation. */
module PrettyPrint {
  import opened Names

  const DefaultIndent: nat := 2

  /** `PrettyPrintEnv`: the strings in use, the string chosen for each name,
      and the indentation. It is passed by value and returned, so it is a
      value here. */
  datatype Env = Env(strs: set<string>, vars: map<Name, string>, indent: nat, indentIncrement: nat)

  /** Every chosen string is recorded as in use, and no two names share a
      string. */
  predicate Valid(env: Env) {
    && (forall x :: x in env.vars ==> env.vars[x] in env.strs)
    && (forall x, y :: x in env.vars && y in env.vars && env.vars[x] == env.vars[y] ==> x == y)
  }

  /** `PrettyPrintEnv::new`. */
  function NewEnv(): (r: Env)
    ensures Valid(r)
    ensures r.strs == {} && r.vars == map[] && r.indent == 0 && r.indentIncrement == DefaultIndent
  {
    Env({}, map[], 0, DefaultIndent)
  }

  /** `incr_indent`. */
  function IncrIndent(env: Env): (r: Env)
    ensures r.indent == env.indent + env.indentIncrement
    ensures r.(indent := env.indent) == env
  {
    env.(indent := env.indent + env.indentIncrement)
  }

  /** `decr_indent`; the subtraction is on `usize`, so the indentation must
      be at least one increment. */
  function DecrIndent(env: Env): (r: Env)
    requires env.indent >= env.indentIncrement
    ensures r.indent + env.indentIncrement == env.indent
    ensures r.(indent := env.indent) == env
  {
    env.(indent := env.indent - env.indentIncrement)
  }

  /** Decreasing the indentation undoes increasing it, and the other way
      round. */
  lemma IndentRoundTrip(env: Env)
    ensures DecrIndent(IncrIndent(env)) == env
    ensures env.indent >= env.indentIncrement ==> IncrIndent(DecrIndent(env)) == env
  {
  }

  /** `print_indent`: the current indentation as spaces. */
  function PrintIndent(env: Env): (r: string)
    ensures |r| == env.indent
    ensures forall k :: 0 <= k < |r| ==> r[k] == ' '
  {
    Spaces(env.indent)
  }

  function Spaces(n: nat): (r: string)
    ensures |r| == n
    ensures forall k :: 0 <= k < |r| ==> r[k] == ' '
  {
    if n == 0 then "" else Spaces(n - 1) + " "
  }

  /** The `k`-th retry of `alloc_free_string`: the name's string, an
      underscore and the `k`-th random suffix. */
  function Candidate(id: Name, rand: nat -> string, k: nat): string {
    id.str + "_" + rand(k)
  }

  /** Distinct draws give distinct candidates. */
  lemma CandidateInjective(id: Name, rand: nat -> string, a: nat, b: nat)
    requires Candidate(id, rand, a) == Candidate(id, rand, b)
    ensures rand(a) == rand(b)
  {
    var p := id.str + "_";
    assert Candidate(id, rand, a)[|p|..] == rand(a);
    assert Candidate(id, rand, b)[|p|..] == rand(b);
  }

  /** The first `k` candidates, as a set. */
  function CandidatesBelow(id: Name, rand: nat -> string, k: nat): set<string> {
    set j | 0 <= j < k :: Candidate(id, rand, j)
  }

  /** With distinct draws, the first `k` candidates are `k` distinct
      strings. */
  lemma {:induction false} CandidatesCount(id: Name, rand: nat -> string, k: nat)
    requires forall a, b :: rand(a) == rand(b) ==> a == b
    ensures |CandidatesBelow(id, rand, k)| == k
  {
    if k > 0 {
      CandidatesCount(id, rand, k - 1);
      var c := Candidate(id, rand, k - 1);
      assert CandidatesBelow(id, rand, k) == CandidatesBelow(id, rand, k - 1) + {c};
      if c in CandidatesBelow(id, rand, k - 1) {
        var j :| 0 <= j < k - 1 && Candidate(id, rand, j) == c;
        CandidateInjective(id, rand, j, k - 1);
      }
    } else {
      assert CandidatesBelow(id, rand, k) == {};
    }
  }

  /** If the first `k` candidates are all in use, there are at least `k`
      strings in use: the retry loop cannot run forever. */
  lemma CandidatesBound(strs: set<string>, id: Name, rand: nat -> string, k: nat)
    requires forall a, b :: rand(a) == rand(b) ==> a == b
    requires forall j :: 0 <= j < k ==> Candidate(id, rand, j) in strs
    ensures k <= |strs|
  {
    CandidatesCount(id, rand, k);
    assert CandidatesBelow(id, rand, k) <= strs;
    SubsetCard(CandidatesBelow(id, rand, k), strs);
  }

  lemma {:induction false} SubsetCard<T>(a: set<T>, b: set<T>)
    requires a <= b
    ensures |a| <= |b|
    decreases |a|
  {
    if a != {} {
      var x :| x in a;
      SubsetCard(a - {x}, b - {x});
    }
  }

  /** `alloc_free_string`: tries the name's own string, then the name printed
      with its symbol (`withSym`), then the name with random suffixes drawn
      from `rand` until one is free, and records the choice. The random
      source is modelled as a sequence of distinct draws. */
  method AllocFreeString(env: Env, id: Name, withSym: Name -> string, rand: nat -> string)
    returns (env': Env, s: string)
    requires forall a, b :: rand(a) == rand(b) ==> a == b
    ensures s !in env.strs
    ensures s == id.str || s == withSym(id) || exists k :: s == Candidate(id, rand, k)
    ensures id.str !in env.strs ==> s == id.str
    ensures env' == env.(strs := env.strs + {s}, vars := env.vars[id := s])
    ensures Valid(env) ==> Valid(env')
  {
    s := id.str;
    if s in env.strs {
      s := withSym(id);
      var k: nat := 0;
      while s in env.strs
        invariant k == 0 ==> s == withSym(id)
        invariant k > 0 ==> s == Candidate(id, rand, k - 1)
        invariant forall j :: 0 <= j < k - 1 ==> Candidate(id, rand, j) in env.strs
        decreases |env.strs| - k
      {
        CandidatesBound(env.strs, id, rand, k);
        s := Candidate(id, rand, k);
        k := k + 1;
      }
    }
    env' := env.(strs := env.strs + {s}, vars := env.vars[id := s]);
  }

  /** `Name::pprint`: a name already in the environment prints as its
      recorded string and leaves the environment as it is; a new name gets a
      free string. */
  method NamePprint(env: Env, id: Name, withSym: Name -> string, rand: nat -> string)
    returns (env': Env, s: string)
    requires forall a, b :: rand(a) == rand(b) ==> a == b
    ensures id in env.vars ==> env' == env && s == env.vars[id]
    ensures id !in env.vars ==> s !in env.strs && env' == env.(strs := env.strs + {s}, vars := env.vars[id := s])
    ensures id in env'.vars && env'.vars[id] == s
    ensures env'.vars.Keys == env.vars.Keys + {id}
    ensures forall x :: x in env.vars ==> x in env'.vars && env'.vars[x] == env.vars[x]
    ensures env'.indent == env.indent && env'.indentIncrement == env.indentIncrement
    ensures Valid(env) ==> Valid(env')
  {
    if id in env.vars {
      env', s := env, env.vars[id];
    } else {
      env', s := AllocFreeString(env, id, withSym, rand);
    }
  }

  /** Printing two distinct names one after the other gives distinct
      strings, and printing the second again gives the same string. */
  method DistinctNamesPrint(env: Env, x: Name, y: Name, withSym: Name -> string, rand: nat -> string)
    returns (env': Env, sx: string, sy: string, sy': string)
    requires Valid(env) && x != y
    requires forall a, b :: rand(a) == rand(b) ==> a == b
    ensures sx != sy && sy == sy'
    ensures x !in env.vars && y !in env.vars ==> |env'.strs| == |env.strs| + 2
  {
    var env1, env2;
    env1, sx := NamePprint(env, x, withSym, rand);
    env2, sy := NamePprint(env1, y, withSym, rand);
    env', sy' := NamePprint(env2, y, withSym, rand);
  }

  /** `Itertools::join`. */
  function Join(parts: seq<string>, sep: string): (r: string)
    ensures |parts| == 1 ==> r == parts[0]
    ensures |parts| > 1 ==> r == Join(parts[..|parts| - 1], sep) + sep + parts[|parts| - 1]
  {
    if parts == [] then ""
    else if |parts| == 1 then parts[0]
    else
      assert parts[1..][..|parts| - 2] == parts[1..|parts| - 1];
      parts[0] + sep + Join(parts[1..], sep)
  }

  /** The strings the environment records for a list of names. */
  function Lookups(vars: map<Name, string>, ids: seq<Name>): seq<string>
    requires forall k :: 0 <= k < |ids| ==> ids[k] in vars
  {
    seq(|ids|, k requires 0 <= k < |ids| => vars[ids[k]])
  }

  /** `pprint_iter` over names: prints them in order, threading the
      environment, and joins the printed strings with the separator. Every
      name ends up recorded, earlier records are kept, and the output is the
      join of the names' recorded strings. */
  method PprintIter(env: Env, ids: seq<Name>, sep: string, withSym: Name -> string, rand: nat -> string)
    returns (env': Env, out: string)
    requires forall a, b :: rand(a) == rand(b) ==> a == b
    ensures forall k :: 0 <= k < |ids| ==> ids[k] in env'.vars
    ensures forall x :: x in env.vars ==> x in env'.vars && env'.vars[x] == env.vars[x]
    ensures env'.vars.Keys == env.vars.Keys + set k | 0 <= k < |ids| :: ids[k]
    ensures env'.indent == env.indent && env'.indentIncrement == env.indentIncrement
    ensures out == Join(Lookups(env'.vars, ids), sep)
    ensures Valid(env) ==> Valid(env')
  {
    env' := env;
    var strs: seq<string> := [];
    var n := 0;
    while n < |ids|
      invariant 0 <= n <= |ids| && |strs| == n
      invariant forall k :: 0 <= k < n ==> ids[k] in env'.vars && strs[k] == env'.vars[ids[k]]
      invariant forall x :: x in env.vars ==> x in env'.vars && env'.vars[x] == env.vars[x]
      invariant env'.vars.Keys == env.vars.Keys + set k | 0 <= k < n :: ids[k]
      invariant env'.indent == env.indent && env'.indentIncrement == env.indentIncrement
      invariant Valid(env) ==> Valid(env')
    {
      var s;
      ghost var before := env'.vars;
      env', s := NamePprint(env', ids[n], withSym, rand);
      ghost var strs' := strs + [s];
      forall k | 0 <= k < n + 1 ensures ids[k] in env'.vars && strs'[k] == env'.vars[ids[k]] {
        if k < n {
          assert strs'[k] == strs[k] && ids[k] in before;
        }
      }
      strs := strs + [s];
      n := n + 1;
    }
    assert strs == Lookups(env'.vars, ids);
    out := Join(strs, sep);
  }
}

=== FILE: results.dfy ===
/** Failure-compatible result types shared by the passes: the model's stand-in
    for the compiler's `CompileResult` / `PyResult`. */
module Results {

  /** A value or an error. */
  datatype Result<+T, +E> = Ok(value: T) | Err(error: E) {
    predicate IsFailure() {
      Err?
    }

    function PropagateFailure<U>(): Result<U, E>
      requires Err?
    {
      Err(error)
    }

    function Extract(): T
      requires Ok?
    {
      value
    }
  }

  /** A result that carries no value: `Result<(), E>` in the source. */
  datatype Outcome<+E> = Pass | Fail(error: E) {
    predicate IsFailure() {
      Fail?
    }

    function PropagateFailure<U>(): Result<U, E>
      requires Fail?
    {
      Err(error)
    }
  }

  datatype Option<+T> = None | Some(value: T)
}

=== FILE: sync.dfy ===
/** Barrier (synchronization point) planning for generated GPU kernels:
    src/cuda/sync.rs.

    Every parallel for-loop has an implicit barrier after it. The pass
    collects one candidate per parallel loop, drops the candidates that the
    execution model makes redundant (the outermost parallel loop, whose end is
    the end of the kernel, and a plain parallel loop that is the last
    statement of a parallel loop's body), and rejects the program when a
    surviving barrier would have to span several thread blocks. */
module Sync {
  import opened Results
  import opened Names

  /** The parallelism a loop carries (stand-in for the loop IR's record):
      `parallel` is `par.is_parallel()`, `reduction` is `par.reduction`. */
  datatype LoopPar = LoopPar(parallel: bool, reduction: bool)

  /** The statements of the loop IR, as far as this pass tells them apart
      (the variants matched at src/cuda/sync.rs:15,22). Only loops carry a
      body that matters here; expressions are left out. */
  datatype Stmt =
    | For(loopVar: Name, body: seq<Stmt>, par: LoopPar)
    | Definition
    | Assign
    | While(body: seq<Stmt>)
    | If(thn: seq<Stmt>, els: seq<Stmt>)

  /** One level of a GPU mapping (stand-in for `GpuMap`), outermost first;
      `n` is the number of threads or blocks at that level. */
  datatype GpuMap = Thread(n: int) | Block(n: int) | ThreadBlock(n: int)

  /** The two compile errors of the validator, told apart by whether the loop
      is a reduction. The source panics when it indexes past the end of a
      hierarchy slice; the model reports that as `SliceOutOfRange`. */
  datatype SyncError = InterBlockReduction | InterBlockLoop | SliceOutOfRange

  // ---------------------------------------------------------------------
  // Reference sets over the statement tree, defined by position alone

  /** Which loops a variable set is about. */
  datatype LoopKind = AnyLoop | ParallelLoop | PlainParallelLoop | ReductionLoop

  predicate IsKind(p: LoopPar, k: LoopKind) {
    match k
    case AnyLoop => true
    case ParallelLoop => p.parallel
    case PlainParallelLoop => p.parallel && !p.reduction
    case ReductionLoop => p.parallel && p.reduction
  }

  /** Variables of the loops of kind `k` anywhere in `ss`. */
  function LoopVars(ss: seq<Stmt>, k: LoopKind): set<Name>
    decreases ss
  {
    set s, v | s in ss && v in StmtLoopVars(s, k) :: v
  }

  function StmtLoopVars(s: Stmt, k: LoopKind): set<Name>
    decreases s
  {
    match s
    case For(x, body, par) => (if IsKind(par, k) then {x} else {}) + LoopVars(body, k)
    case Definition => {}
    case Assign => {}
    case While(body) => LoopVars(body, k)
    case If(thn, els) => LoopVars(thn, k) + LoopVars(els, k)
  }

  /** The last statement of a loop body whose own loop is parallel (when
      `inPar`), if that statement is a plain parallel loop. */
  function LastTail(ss: seq<Stmt>, inPar: bool): set<Name> {
    if inPar && |ss| > 0 && ss[|ss| - 1].For? && IsKind(ss[|ss| - 1].par, PlainParallelLoop)
    then {ss[|ss| - 1].loopVar}
    else {}
  }

  /** Plain parallel loops that are the last statement of the body of a
      parallel loop, anywhere in `ss`: the tail barriers elimination drops. */
  function ParTailVars(ss: seq<Stmt>): set<Name>
    decreases ss
  {
    set s, v | s in ss && v in StmtParTailVars(s) :: v
  }

  function StmtParTailVars(s: Stmt): set<Name>
    decreases s
  {
    match s
    case For(_, body, par) => LastTail(body, par.parallel) + ParTailVars(body)
    case Definition => {}
    case Assign => {}
    case While(body) => ParTailVars(body)
    case If(thn, els) => ParTailVars(thn) + ParTailVars(els)
  }

  /** Parallel loops with no enclosing parallel loop: the first parallel loop
      on each path from the root, whose barrier the kernel end provides. */
  function RootFirstVars(ss: seq<Stmt>): set<Name>
    decreases ss
  {
    set s, v | s in ss && v in StmtRootFirstVars(s) :: v
  }

  function StmtRootFirstVars(s: Stmt): set<Name>
    decreases s
  {
    match s
    case For(x, body, par) => if par.parallel then {x} else RootFirstVars(body)
    case Definition => {}
    case Assign => {}
    case While(body) => RootFirstVars(body)
    case If(thn, els) => RootFirstVars(thn) + RootFirstVars(els)
  }

  /** Every loop variable is bound by exactly one loop (guaranteed upstream;
      the pass identifies loops by their variable). */
  ghost predicate UniqueLoopVars(ss: seq<Stmt>)
    decreases ss
  {
    && (forall i, j :: 0 <= i < j < |ss| ==> StmtLoopVars(ss[i], AnyLoop) !! StmtLoopVars(ss[j], AnyLoop))
    && (forall s :: s in ss ==> StmtUniqueLoopVars(s))
  }

  ghost predicate StmtUniqueLoopVars(s: Stmt)
    decreases s
  {
    match s
    case For(x, body, _) => x !in LoopVars(body, AnyLoop) && UniqueLoopVars(body)
    case Definition => true
    case Assign => true
    case While(body) => UniqueLoopVars(body)
    case If(thn, els) =>
      UniqueLoopVars(thn) && UniqueLoopVars(els) && LoopVars(thn, AnyLoop) !! LoopVars(els, AnyLoop)
  }

  // ---------------------------------------------------------------------
  // Collection (src/cuda/sync.rs:10-34)

  function CollectStmt(acc: Result<set<Name>, SyncError>, s: Stmt): (r: Result<set<Name>, SyncError>)
    decreases s
    ensures acc.Err? ==> r == acc
    ensures acc.Ok? ==> r.Ok? && acc.value <= r.value
  {
    match s
    case For(x, body, par) =>
      if acc.Err? then acc
      else CollectStmts(Ok(if par.parallel then acc.value + {x} else acc.value), body)
    case Definition => acc
    case Assign => acc
    case While(body) => CollectStmts(acc, body)
    case If(thn, els) => CollectStmts(CollectStmts(acc, thn), els)
  }

  function CollectStmts(acc: Result<set<Name>, SyncError>, ss: seq<Stmt>): (r: Result<set<Name>, SyncError>)
    decreases ss
    ensures acc.Err? ==> r == acc
    ensures acc.Ok? ==> r.Ok? && acc.value <= r.value
  {
    if ss == [] then acc else CollectStmts(CollectStmt(acc, ss[0]), ss[1..])
  }

  // ---------------------------------------------------------------------
  // Elimination, tail-aware mode (src/cuda/sync.rs:36-74)

  /** `remove_redundant_sync_par_stmt`: a loop's body is traversed in
      tail-aware mode, parallel when the loop is still a candidate; other
      statements fold over their sub-statements. Only the tail rule removes
      anything here, so only plain parallel loops lose their barrier. */
  function RemoveParStmt(sync: set<Name>, s: Stmt): (r: set<Name>)
    decreases s, 0
    ensures r <= sync
    ensures sync - r <= StmtLoopVars(s, PlainParallelLoop)
    ensures s.For? && s.loopVar !in LoopVars(s.body, AnyLoop) ==> (s.loopVar in r <==> s.loopVar in sync)
  {
    match s
    case For(x, body, _) =>
      LoopVarsWithin(body, PlainParallelLoop, AnyLoop);
      RemoveParStmts(sync, body, x in sync)
    case Definition => sync
    case Assign => sync
    case While(body) => RemoveParFold(sync, body)
    case If(thn, els) => RemoveParFold(RemoveParFold(sync, thn), els)
  }

  /** Folds `RemoveParStmt` over a statement sequence, first to last. */
  function RemoveParFold(sync: set<Name>, ss: seq<Stmt>): (r: set<Name>)
    decreases ss
    ensures r <= sync
    ensures sync - r <= LoopVars(ss, PlainParallelLoop)
  {
    if ss == [] then sync
    else
      var r := RemoveParFold(RemoveParStmt(sync, ss[0]), ss[1..]);
      SplitFirst(ss, PlainParallelLoop);
      r
  }

  /** Folds `RemoveParStmt` over a statement sequence, last to first. */
  function RemoveParFoldRev(sync: set<Name>, ss: seq<Stmt>): (r: set<Name>)
    decreases ss
    ensures r <= sync
    ensures sync - r <= LoopVars(ss, PlainParallelLoop)
  {
    if ss == [] then sync
    else
      var last := ss[|ss| - 1];
      var r := RemoveParFoldRev(RemoveParStmt(sync, last), ss[..|ss| - 1]);
      SplitLast(ss, PlainParallelLoop);
      r
  }

  /** The last statement of a body in tail-aware mode: a plain parallel loop
      ending the body of a parallel loop loses its barrier and its body is
      traversed in the same mode; any other statement goes to
      `RemoveParStmt`. */
  function RemoveParLast(sync: set<Name>, last: Stmt, inPar: bool): (r: set<Name>)
    decreases last, 1
    ensures r <= sync
    ensures sync - r <= StmtLoopVars(last, PlainParallelLoop)
    ensures LastTail([last], inPar) !! r
  {
    match last
    case For(x, body, par) =>
      var sync' := if inPar && par.parallel && !par.reduction then sync - {x} else sync;
      RemoveParStmts(sync', body, par.parallel)
    case _ => RemoveParStmt(sync, last)
  }

  /** `remove_redundant_sync_par_stmts`: the body of a loop, parallel when
      `inPar`. The last statement goes to `RemoveParLast`, the others to
      `RemoveParStmt`, last to first. */
  function RemoveParStmts(sync: set<Name>, ss: seq<Stmt>, inPar: bool): (r: set<Name>)
    decreases ss, 0
    ensures r <= sync
    ensures sync - r <= LoopVars(ss, PlainParallelLoop)
    ensures LastTail(ss, inPar) !! r
  {
    if ss == [] then sync
    else
      var last := ss[|ss| - 1];
      assert last in ss;
      assert LastTail(ss, inPar) == LastTail([last], inPar);
      var r := RemoveParFoldRev(RemoveParLast(sync, last, inPar), ss[..|ss| - 1]);
      SplitLast(ss, PlainParallelLoop);
      r
  }

  // ---------------------------------------------------------------------
  // Elimination, top-level mode (src/cuda/sync.rs:76-102)

  /** `remove_redundant_sync_stmt`: a loop that is still a candidate loses
      its barrier (the first one on a root path is the kernel itself) and its
      body is traversed in tail-aware, parallel mode; any other loop is
      descended in this mode. */
  function RemoveStmt(sync: set<Name>, s: Stmt): (r: set<Name>)
    decreases s
    ensures r <= sync
    ensures sync - r <= StmtLoopVars(s, AnyLoop)
  {
    match s
    case For(x, body, _) =>
      if x in sync then
        LoopVarsWithin(body, PlainParallelLoop, AnyLoop);
        RemoveParStmts(sync - {x}, body, true)
      else RemoveStmts(sync, body)
    case Definition => sync
    case Assign => sync
    case While(body) => RemoveStmts(sync, body)
    case If(thn, els) => RemoveStmts(RemoveStmts(sync, thn), els)
  }

  function RemoveStmts(sync: set<Name>, ss: seq<Stmt>): (r: set<Name>)
    decreases ss
    ensures r <= sync
    ensures sync - r <= LoopVars(ss, AnyLoop)
  {
    if ss == [] then sync
    else
      var r := RemoveStmts(RemoveStmt(sync, ss[0]), ss[1..]);
      SplitFirst(ss, AnyLoop);
      r
  }

  // ---------------------------------------------------------------------
  // Validation, below an outermost mapped loop (src/cuda/sync.rs:104-156)

  /** A loop consumes one hierarchy level when it is parallel or still a
      barrier candidate. */
  predicate Consumes(loop: Stmt, sync: set<Name>)
    requires loop.For?
  {
    loop.loopVar in sync || loop.par.parallel
  }

  /** `ensure_no_inter_block_sync_par_stmt`: a surviving barrier must sit at
      a `Thread` level, the head of the remaining slice `pars`. */
  function CheckParStmt(s: Stmt, sync: set<Name>, pars: seq<GpuMap>): Outcome<SyncError>
    decreases s
  {
    match s
    case For(x, body, par) =>
      if x in sync then
        if |pars| == 0 then Fail(SliceOutOfRange)
        else if pars[0].Thread? then CheckParFold(body, sync, pars[1..])
        else Fail(if par.reduction then InterBlockReduction else InterBlockLoop)
      else if par.parallel then
        if |pars| == 0 then Fail(SliceOutOfRange) else CheckParFold(body, sync, pars[1..])
      else CheckParFold(body, sync, pars)
    case Definition => Pass
    case Assign => Pass
    case While(body) => CheckParFold(body, sync, pars)
    case If(thn, els) =>
      var r := CheckParFold(thn, sync, pars);
      if r.Fail? then r else CheckParFold(els, sync, pars)
  }

  /** `ensure_no_inter_block_sync_par_stmts`: stops at the first failure. */
  function CheckParFold(ss: seq<Stmt>, sync: set<Name>, pars: seq<GpuMap>): Outcome<SyncError>
    decreases ss
  {
    if ss == [] then Pass
    else
      var r := CheckParStmt(ss[0], sync, pars);
      if r.Fail? then r else CheckParFold(ss[1..], sync, pars)
  }

  // ---------------------------------------------------------------------
  // Validation from the root (src/cuda/sync.rs:158-190)

  /** `ensure_no_inter_block_sync_stmt`: a loop with an entry in the mapping
      is an outermost parallel loop; its body is checked against its own
      hierarchy minus the level that places the loop itself. Loops above it
      are not checked. */
  function CheckStmt(s: Stmt, sync: set<Name>, mapping: map<Name, seq<GpuMap>>): Outcome<SyncError>
    decreases s
  {
    match s
    case For(x, body, _) =>
      if x in mapping then
        if |mapping[x]| == 0 then Fail(SliceOutOfRange)
        else CheckParFold(body, sync, mapping[x][1..])
      else CheckFold(body, sync, mapping)
    case Definition => Pass
    case Assign => Pass
    case While(body) => CheckFold(body, sync, mapping)
    case If(thn, els) =>
      var r := CheckFold(thn, sync, mapping);
      if r.Fail? then r else CheckFold(els, sync, mapping)
  }

  function CheckFold(ss: seq<Stmt>, sync: set<Name>, mapping: map<Name, seq<GpuMap>>): Outcome<SyncError>
    decreases ss
  {
    if ss == [] then Pass
    else
      var r := CheckStmt(ss[0], sync, mapping);
      if r.Fail? then r else CheckFold(ss[1..], sync, mapping)
  }

  // ---------------------------------------------------------------------
  // The whole pass (src/cuda/sync.rs:208-229)

  /** `identify_sync_points`: collect, eliminate, validate. On success the
      result is the set of loops after which a barrier is emitted. */
  function IdentifySyncPoints(body: seq<Stmt>, mapping: map<Name, seq<GpuMap>>): (r: Result<set<Name>, SyncError>)
    ensures r.Ok? ==> r.value <= LoopVars(body, ParallelLoop)
    ensures r.Ok? <==> CheckFold(body, RemoveStmts(LoopVars(body, ParallelLoop), body), mapping).Pass?
  {
    CollectExact({}, body);
    assert {} + LoopVars(body, ParallelLoop) == LoopVars(body, ParallelLoop);
    // Collection never fails, so the source's early return is not reachable.
    var candidates := CollectStmts(Ok({}), body).value;
    var kept := RemoveStmts(candidates, body);
    var checked := CheckFold(body, kept, mapping);
    if checked.Fail? then Err(checked.error) else Ok(kept)
  }

  // ---------------------------------------------------------------------
  // What validation promises

  /** `loop` is visited by the validator's descent through `ss`, started
      with hierarchy slice `pars`, and is met with slice `rest`: every loop
      on the way that consumes a level drops the head of the slice. */
  ghost predicate ReachedIn(ss: seq<Stmt>, sync: set<Name>, pars: seq<GpuMap>, loop: Stmt, rest: seq<GpuMap>)
    decreases ss
  {
    exists s :: s in ss && ReachedInStmt(s, sync, pars, loop, rest)
  }

  ghost predicate ReachedInStmt(s: Stmt, sync: set<Name>, pars: seq<GpuMap>, loop: Stmt, rest: seq<GpuMap>)
    decreases s
  {
    match s
    case For(_, body, _) =>
      || (loop == s && rest == pars)
      || (if Consumes(s, sync)
          then |pars| > 0 && ReachedIn(body, sync, pars[1..], loop, rest)
          else ReachedIn(body, sync, pars, loop, rest))
    case Definition => false
    case Assign => false
    case While(body) => ReachedIn(body, sync, pars, loop, rest)
    case If(thn, els) => ReachedIn(thn, sync, pars, loop, rest) || ReachedIn(els, sync, pars, loop, rest)
  }

  /** A loop met with slice `rest` is well placed: a level is left for it
      when it needs one, and a surviving barrier is at a thread level. */
  predicate LevelOk(loop: Stmt, sync: set<Name>, rest: seq<GpuMap>) {
    loop.For? ==>
      && (Consumes(loop, sync) ==> |rest| > 0)
      && (loop.loopVar in sync ==> rest[0].Thread?)
  }

  /** Every loop the descent meets is well placed. */
  ghost predicate IntraBlock(ss: seq<Stmt>, sync: set<Name>, pars: seq<GpuMap>) {
    forall loop, rest :: ReachedIn(ss, sync, pars, loop, rest) ==> LevelOk(loop, sync, rest)
  }

  ghost predicate StmtIntraBlock(s: Stmt, sync: set<Name>, pars: seq<GpuMap>) {
    forall loop, rest :: ReachedInStmt(s, sync, pars, loop, rest) ==> LevelOk(loop, sync, rest)
  }

  lemma IntraBlockSplit(ss: seq<Stmt>, sync: set<Name>, pars: seq<GpuMap>)
    requires ss != []
    ensures IntraBlock(ss, sync, pars) <==> StmtIntraBlock(ss[0], sync, pars) && IntraBlock(ss[1..], sync, pars)
  {
    forall loop, rest
      ensures ReachedIn(ss, sync, pars, loop, rest)
          <==> ReachedInStmt(ss[0], sync, pars, loop, rest) || ReachedIn(ss[1..], sync, pars, loop, rest)
    {
      if ReachedIn(ss, sync, pars, loop, rest) {
        var s :| s in ss && ReachedInStmt(s, sync, pars, loop, rest);
        if s != ss[0] {
          assert s in ss[1..];
        }
      }
      if ReachedInStmt(ss[0], sync, pars, loop, rest) {
        assert ss[0] in ss;
      }
      if ReachedIn(ss[1..], sync, pars, loop, rest) {
        var s :| s in ss[1..] && ReachedInStmt(s, sync, pars, loop, rest);
        assert s in ss;
      }
    }
  }

  /** The tail-aware validator passes exactly when every loop it meets is
      well placed; in particular it fails when a surviving barrier would sit
      at a `Block` or `ThreadBlock` level. */
  lemma {:induction false} CheckParFoldSpec(ss: seq<Stmt>, sync: set<Name>, pars: seq<GpuMap>)
    decreases ss
    ensures CheckParFold(ss, sync, pars).Pass? <==> IntraBlock(ss, sync, pars)
  {
    if ss == [] {
    } else {
      IntraBlockSplit(ss, sync, pars);
      CheckParStmtSpec(ss[0], sync, pars);
      CheckParFoldSpec(ss[1..], sync, pars);
    }
  }

  lemma {:induction false} CheckParStmtSpec(s: Stmt, sync: set<Name>, pars: seq<GpuMap>)
    decreases s
    ensures CheckParStmt(s, sync, pars).Pass? <==> StmtIntraBlock(s, sync, pars)
  {
    match s
    case For(x, body, par) =>
      var inner := if Consumes(s, sync) && |pars| > 0 then pars[1..] else pars;
      CheckParFoldSpec(body, sync, inner);
      if !LevelOk(s, sync, pars) {
        assert ReachedInStmt(s, sync, pars, s, pars);
      } else {
        forall loop, rest | ReachedIn(body, sync, inner, loop, rest)
          ensures ReachedInStmt(s, sync, pars, loop, rest)
        {}
      }
    case Definition =>
    case Assign =>
    case While(body) => CheckParFoldSpec(body, sync, pars);
    case If(thn, els) =>
      CheckParFoldSpec(thn, sync, pars);
      CheckParFoldSpec(els, sync, pars);
  }

  /** The error the validator reports for a loop met with slice `rest`:
      running out of levels, or a surviving barrier at a level that is not a
      thread level, reported as a reduction or a plain loop according to the
      loop itself. */
  predicate FailsWith(loop: Stmt, sync: set<Name>, rest: seq<GpuMap>, e: SyncError) {
    && loop.For?
    && if Consumes(loop, sync) && |rest| == 0 then e == SliceOutOfRange
       else
         && loop.loopVar in sync && !rest[0].Thread?
         && e == (if loop.par.reduction then InterBlockReduction else InterBlockLoop)
  }

  /** When the tail-aware validator fails, its error is the one of a loop it
      meets: in particular `InterBlockReduction` names a reduction loop of
      the set at a non-thread level, and `InterBlockLoop` a plain one. */
  lemma {:induction false} CheckParFoldError(ss: seq<Stmt>, sync: set<Name>, pars: seq<GpuMap>)
    decreases ss
    ensures var r := CheckParFold(ss, sync, pars);
      r.Fail? ==> exists loop, rest :: ReachedIn(ss, sync, pars, loop, rest) && FailsWith(loop, sync, rest, r.error)
  {
    if ss != [] {
      var r := CheckParStmt(ss[0], sync, pars);
      if r.Fail? {
        CheckParStmtError(ss[0], sync, pars);
        var loop, rest :| ReachedInStmt(ss[0], sync, pars, loop, rest) && FailsWith(loop, sync, rest, r.error);
        assert ss[0] in ss;
        assert ReachedIn(ss, sync, pars, loop, rest);
      } else {
        var r' := CheckParFold(ss[1..], sync, pars);
        CheckParFoldError(ss[1..], sync, pars);
        if r'.Fail? {
          var loop, rest :| ReachedIn(ss[1..], sync, pars, loop, rest) && FailsWith(loop, sync, rest, r'.error);
          var s :| s in ss[1..] && ReachedInStmt(s, sync, pars, loop, rest);
          assert s in ss;
          assert ReachedIn(ss, sync, pars, loop, rest);
        }
      }
    }
  }

  lemma {:induction false} CheckParStmtError(s: Stmt, sync: set<Name>, pars: seq<GpuMap>)
    decreases s
    ensures var r := CheckParStmt(s, sync, pars);
      r.Fail? ==> exists loop, rest :: ReachedInStmt(s, sync, pars, loop, rest) && FailsWith(loop, sync, rest, r.error)
  {
    var r := CheckParStmt(s, sync, pars);
    match s
    case For(x, body, par) =>
      if r.Fail? {
        var inner := if Consumes(s, sync) && |pars| > 0 then pars[1..] else pars;
        if FailsWith(s, sync, pars, r.error) {
          assert ReachedInStmt(s, sync, pars, s, pars);
        } else {
          assert r == CheckParFold(body, sync, inner);
          CheckParFoldError(body, sync, inner);
          var loop, rest :| ReachedIn(body, sync, inner, loop, rest) && FailsWith(loop, sync, rest, r.error);
          assert ReachedInStmt(s, sync, pars, loop, rest);
        }
      }
    case Definition =>
    case Assign =>
    case While(body) => CheckParFoldError(body, sync, pars);
    case If(thn, els) =>
      CheckParFoldError(thn, sync, pars);
      CheckParFoldError(els, sync, pars);
  }

  /** `loop` is an outermost mapped loop of `ss`: a loop with a mapping
      entry that has no mapped loop around it. */
  ghost predicate MappedRootIn(ss: seq<Stmt>, mapping: map<Name, seq<GpuMap>>, loop: Stmt)
    decreases ss
  {
    exists s :: s in ss && StmtMappedRoot(s, mapping, loop)
  }

  ghost predicate StmtMappedRoot(s: Stmt, mapping: map<Name, seq<GpuMap>>, loop: Stmt)
    decreases s
  {
    match s
    case For(x, body, _) => if x in mapping then loop == s else MappedRootIn(body, mapping, loop)
    case Definition => false
    case Assign => false
    case While(body) => MappedRootIn(body, mapping, loop)
    case If(thn, els) => MappedRootIn(thn, mapping, loop) || MappedRootIn(els, mapping, loop)
  }

  /** Every outermost mapped loop has a level for itself, and its body is
      well placed in the levels below it. */
  ghost predicate KernelsIntraBlock(ss: seq<Stmt>, sync: set<Name>, mapping: map<Name, seq<GpuMap>>) {
    forall loop :: MappedRootIn(ss, mapping, loop) ==>
      && loop.For? && loop.loopVar in mapping
      && |mapping[loop.loopVar]| > 0
      && IntraBlock(loop.body, sync, mapping[loop.loopVar][1..])
  }

  ghost predicate StmtKernelsIntraBlock(s: Stmt, sync: set<Name>, mapping: map<Name, seq<GpuMap>>) {
    forall loop :: StmtMappedRoot(s, mapping, loop) ==>
      && loop.For? && loop.loopVar in mapping
      && |mapping[loop.loopVar]| > 0
      && IntraBlock(loop.body, sync, mapping[loop.loopVar][1..])
  }

  lemma KernelsIntraBlockSplit(ss: seq<Stmt>, sync: set<Name>, mapping: map<Name, seq<GpuMap>>)
    requires ss != []
    ensures KernelsIntraBlock(ss, sync, mapping)
        <==> StmtKernelsIntraBlock(ss[0], sync, mapping) && KernelsIntraBlock(ss[1..], sync, mapping)
  {
    forall loop
      ensures MappedRootIn(ss, mapping, loop)
          <==> StmtMappedRoot(ss[0], mapping, loop) || MappedRootIn(ss[1..], mapping, loop)
    {
      if MappedRootIn(ss, mapping, loop) {
        var s :| s in ss && StmtMappedRoot(s, mapping, loop);
        if s != ss[0] {
          assert s in ss[1..];
        }
      }
      if StmtMappedRoot(ss[0], mapping, loop) {
        assert ss[0] in ss;
      }
      if MappedRootIn(ss[1..], mapping, loop) {
        var s :| s in ss[1..] && StmtMappedRoot(s, mapping, loop);
        assert s in ss;
      }
    }
  }

  /** The validator from the root passes exactly when every outermost mapped
      loop is well placed in its own hierarchy. */
  lemma {:induction false} CheckFoldSpec(ss: seq<Stmt>, sync: set<Name>, mapping: map<Name, seq<GpuMap>>)
    decreases ss
    ensures CheckFold(ss, sync, mapping).Pass? <==> KernelsIntraBlock(ss, sync, mapping)
  {
    if ss != [] {
      KernelsIntraBlockSplit(ss, sync, mapping);
      CheckStmtSpec(ss[0], sync, mapping);
      CheckFoldSpec(ss[1..], sync, mapping);
    }
  }

  lemma {:induction false} CheckStmtSpec(s: Stmt, sync: set<Name>, mapping: map<Name, seq<GpuMap>>)
    decreases s
    ensures CheckStmt(s, sync, mapping).Pass? <==> StmtKernelsIntraBlock(s, sync, mapping)
  {
    match s
    case For(x, body, _) =>
      if x in mapping {
        assert StmtMappedRoot(s, mapping, s);
        if |mapping[x]| > 0 {
          CheckParFoldSpec(body, sync, mapping[x][1..]);
        }
      } else {
        CheckFoldSpec(body, sync, mapping);
      }
    case Definition =>
    case Assign =>
    case While(body) => CheckFoldSpec(body, sync, mapping);
    case If(thn, els) =>
      CheckFoldSpec(thn, sync, mapping);
      CheckFoldSpec(els, sync, mapping);
  }

  /** The error reported for an outermost mapped loop `root`: a mapping with
      no level for the loop itself, or the error of a loop its body meets
      in the levels below. */
  ghost predicate KernelFailsWith(root: Stmt, sync: set<Name>, mapping: map<Name, seq<GpuMap>>, e: SyncError) {
    && root.For? && root.loopVar in mapping
    && if |mapping[root.loopVar]| == 0 then e == SliceOutOfRange
       else exists loop, rest ::
         ReachedIn(root.body, sync, mapping[root.loopVar][1..], loop, rest) && FailsWith(loop, sync, rest, e)
  }

  /** When the validator from the root fails, its error is the one of an
      outermost mapped loop: `SliceOutOfRange` for an empty mapping, or the
      error of a loop met inside that kernel. */
  lemma {:induction false} CheckFoldError(ss: seq<Stmt>, sync: set<Name>, mapping: map<Name, seq<GpuMap>>)
    decreases ss
    ensures var r := CheckFold(ss, sync, mapping);
      r.Fail? ==> exists root :: MappedRootIn(ss, mapping, root) && KernelFailsWith(root, sync, mapping, r.error)
  {
    if ss != [] {
      var r := CheckStmt(ss[0], sync, mapping);
      if r.Fail? {
        CheckStmtError(ss[0], sync, mapping);
        var root :| StmtMappedRoot(ss[0], mapping, root) && KernelFailsWith(root, sync, mapping, r.error);
        assert ss[0] in ss;
        assert MappedRootIn(ss, mapping, root);
      } else {
        var r' := CheckFold(ss[1..], sync, mapping);
        CheckFoldError(ss[1..], sync, mapping);
        if r'.Fail? {
          var root :| MappedRootIn(ss[1..], mapping, root) && KernelFailsWith(root, sync, mapping, r'.error);
          var s :| s in ss[1..] && StmtMappedRoot(s, mapping, root);
          assert s in ss;
          assert MappedRootIn(ss, mapping, root);
        }
      }
    }
  }

  lemma {:induction false} CheckStmtError(s: Stmt, sync: set<Name>, mapping: map<Name, seq<GpuMap>>)
    decreases s
    ensures var r := CheckStmt(s, sync, mapping);
      r.Fail? ==> exists root :: StmtMappedRoot(s, mapping, root) && KernelFailsWith(root, sync, mapping, r.error)
  {
    var r := CheckStmt(s, sync, mapping);
    match s
    case For(x, body, _) =>
      if x in mapping {
        if r.Fail? {
          assert StmtMappedRoot(s, mapping, s);
          if |mapping[x]| > 0 {
            CheckParFoldError(body, sync, mapping[x][1..]);
          }
          assert KernelFailsWith(s, sync, mapping, r.error);
        }
      } else {
        CheckFoldError(body, sync, mapping);
      }
    case Definition =>
    case Assign =>
    case While(body) => CheckFoldError(body, sync, mapping);
    case If(thn, els) =>
      CheckFoldError(thn, sync, mapping);
      CheckFoldError(els, sync, mapping);
  }

  // ---------------------------------------------------------------------
  // Collection adds exactly the parallel loops

  /** Collection from `acc` adds the variable of every parallel loop, at any
      depth, reductions included, and nothing else. */
  lemma {:induction false} CollectExact(acc: set<Name>, ss: seq<Stmt>)
    decreases ss
    ensures CollectStmts(Ok(acc), ss) == Ok(acc + LoopVars(ss, ParallelLoop))
  {
    if ss != [] {
      StmtCollectExact(acc, ss[0]);
      CollectExact(acc + StmtLoopVars(ss[0], ParallelLoop), ss[1..]);
      SplitFirst(ss, ParallelLoop);
      calc {
        CollectStmts(Ok(acc), ss);
        CollectStmts(CollectStmt(Ok(acc), ss[0]), ss[1..]);
        CollectStmts(Ok(acc + StmtLoopVars(ss[0], ParallelLoop)), ss[1..]);
        Ok(acc + StmtLoopVars(ss[0], ParallelLoop) + LoopVars(ss[1..], ParallelLoop));
        { assert acc + StmtLoopVars(ss[0], ParallelLoop) + LoopVars(ss[1..], ParallelLoop)
              == acc + LoopVars(ss, ParallelLoop); }
        Ok(acc + LoopVars(ss, ParallelLoop));
      }
    } else {
      assert acc + LoopVars(ss, ParallelLoop) == acc;
    }
  }

  lemma {:induction false} StmtCollectExact(acc: set<Name>, s: Stmt)
    decreases s
    ensures CollectStmt(Ok(acc), s) == Ok(acc + StmtLoopVars(s, ParallelLoop))
  {
    match s
    case For(x, body, par) =>
      var start := if par.parallel then acc + {x} else acc;
      CollectExact(start, body);
      assert start + LoopVars(body, ParallelLoop) == acc + StmtLoopVars(s, ParallelLoop);
    case Definition => assert acc + {} == acc;
    case Assign => assert acc + {} == acc;
    case While(body) => CollectExact(acc, body);
    case If(thn, els) =>
      CollectExact(acc, thn);
      CollectExact(acc + LoopVars(thn, ParallelLoop), els);
      assert acc + LoopVars(thn, ParallelLoop) + LoopVars(els, ParallelLoop)
          == acc + StmtLoopVars(s, ParallelLoop);
  }

  // ---------------------------------------------------------------------
  // Decomposition of the reference sets

  lemma SplitFirst(ss: seq<Stmt>, k: LoopKind)
    requires ss != []
    ensures LoopVars(ss, k) == StmtLoopVars(ss[0], k) + LoopVars(ss[1..], k)
    ensures ParTailVars(ss) == StmtParTailVars(ss[0]) + ParTailVars(ss[1..])
    ensures RootFirstVars(ss) == StmtRootFirstVars(ss[0]) + RootFirstVars(ss[1..])
  {
    assert ss == [ss[0]] + ss[1..];
  }

  lemma SplitLast(ss: seq<Stmt>, k: LoopKind)
    requires ss != []
    ensures LoopVars(ss, k) == LoopVars(ss[..|ss| - 1], k) + StmtLoopVars(ss[|ss| - 1], k)
    ensures ParTailVars(ss) == ParTailVars(ss[..|ss| - 1]) + StmtParTailVars(ss[|ss| - 1])
    ensures RootFirstVars(ss) == RootFirstVars(ss[..|ss| - 1]) + StmtRootFirstVars(ss[|ss| - 1])
  {
    assert ss == ss[..|ss| - 1] + [ss[|ss| - 1]];
  }

  /** Kind `k` is a special case of kind `k2`. */
  predicate Finer(k: LoopKind, k2: LoopKind) {
    k == k2 || k2 == AnyLoop || (k2 == ParallelLoop && k != AnyLoop)
  }

  /** Loops of a kind are among the loops of any coarser kind. */
  lemma {:induction false} LoopVarsWithin(ss: seq<Stmt>, k: LoopKind, k2: LoopKind)
    requires Finer(k, k2)
    decreases ss
    ensures LoopVars(ss, k) <= LoopVars(ss, k2)
  {
    forall s | s in ss ensures StmtLoopVars(s, k) <= StmtLoopVars(s, k2) {
      StmtLoopVarsWithin(s, k, k2);
    }
  }

  lemma {:induction false} StmtLoopVarsWithin(s: Stmt, k: LoopKind, k2: LoopKind)
    requires Finer(k, k2)
    decreases s
    ensures StmtLoopVars(s, k) <= StmtLoopVars(s, k2)
  {
    match s
    case For(_, body, _) => LoopVarsWithin(body, k, k2);
    case Definition =>
    case Assign =>
    case While(body) => LoopVarsWithin(body, k, k2);
    case If(thn, els) => LoopVarsWithin(thn, k, k2); LoopVarsWithin(els, k, k2);
  }

  // ---------------------------------------------------------------------
  // Structure lemmas used by the elimination theorem

  /** Tail barriers are plain parallel loops of the tree. */
  lemma {:induction false} ParTailWithin(ss: seq<Stmt>)
    decreases ss
    ensures ParTailVars(ss) <= LoopVars(ss, PlainParallelLoop)
  {
    forall s | s in ss ensures StmtParTailVars(s) <= StmtLoopVars(s, PlainParallelLoop) {
      StmtParTailWithin(s);
    }
  }

  lemma {:induction false} StmtParTailWithin(s: Stmt)
    decreases s
    ensures StmtParTailVars(s) <= StmtLoopVars(s, PlainParallelLoop)
  {
    match s
    case For(_, body, _) =>
      ParTailWithin(body);
      if body != [] {
        var last := body[|body| - 1];
        assert last in body;
        if last.For? && IsKind(last.par, PlainParallelLoop) {
          assert last.loopVar in StmtLoopVars(last, PlainParallelLoop);
        }
      }
    case Definition =>
    case Assign =>
    case While(body) => ParTailWithin(body);
    case If(thn, els) => ParTailWithin(thn); ParTailWithin(els);
  }

  /** Root-first loops are parallel loops of the tree. */
  lemma {:induction false} RootFirstWithin(ss: seq<Stmt>)
    decreases ss
    ensures RootFirstVars(ss) <= LoopVars(ss, ParallelLoop)
  {
    forall s | s in ss ensures StmtRootFirstVars(s) <= StmtLoopVars(s, ParallelLoop) {
      StmtRootFirstWithin(s);
    }
  }

  lemma {:induction false} StmtRootFirstWithin(s: Stmt)
    decreases s
    ensures StmtRootFirstVars(s) <= StmtLoopVars(s, ParallelLoop)
  {
    match s
    case For(_, body, par) =>
      if !par.parallel {
        RootFirstWithin(body);
      }
    case Definition =>
    case Assign =>
    case While(body) => RootFirstWithin(body);
    case If(thn, els) => RootFirstWithin(thn); RootFirstWithin(els);
  }

  lemma UniqueSplitFirst(ss: seq<Stmt>)
    requires ss != [] && UniqueLoopVars(ss)
    ensures StmtUniqueLoopVars(ss[0]) && UniqueLoopVars(ss[1..])
    ensures StmtLoopVars(ss[0], AnyLoop) !! LoopVars(ss[1..], AnyLoop)
  {
    assert ss[0] in ss;
    forall s | s in ss[1..] ensures StmtUniqueLoopVars(s) {
      assert s in ss;
    }
    forall v | v in LoopVars(ss[1..], AnyLoop) ensures v !in StmtLoopVars(ss[0], AnyLoop) {
      var s :| s in ss[1..] && v in StmtLoopVars(s, AnyLoop);
      var j :| 0 <= j < |ss[1..]| && ss[1..][j] == s;
      assert ss[j + 1] == s;
    }
  }

  lemma UniqueSplitLast(ss: seq<Stmt>)
    requires ss != [] && UniqueLoopVars(ss)
    ensures StmtUniqueLoopVars(ss[|ss| - 1]) && UniqueLoopVars(ss[..|ss| - 1])
    ensures LoopVars(ss[..|ss| - 1], AnyLoop) !! StmtLoopVars(ss[|ss| - 1], AnyLoop)
  {
    var prefix := ss[..|ss| - 1];
    assert ss[|ss| - 1] in ss;
    forall s | s in prefix ensures StmtUniqueLoopVars(s) {
      assert s in ss;
    }
    forall v | v in LoopVars(prefix, AnyLoop) ensures v !in StmtLoopVars(ss[|ss| - 1], AnyLoop) {
      var s :| s in prefix && v in StmtLoopVars(s, AnyLoop);
      var j :| 0 <= j < |prefix| && prefix[j] == s;
      assert ss[j] == s;
    }
  }

  /** Under unique loop variables, plain parallel loops and reductions are
      different loops. */
  lemma {:induction false} KindsDisjoint(ss: seq<Stmt>)
    requires UniqueLoopVars(ss)
    decreases ss
    ensures LoopVars(ss, PlainParallelLoop) !! LoopVars(ss, ReductionLoop)
  {
    forall v | v in LoopVars(ss, PlainParallelLoop) ensures v !in LoopVars(ss, ReductionLoop) {
      var i :| 0 <= i < |ss| && v in StmtLoopVars(ss[i], PlainParallelLoop);
      StmtKindsDisjoint(ss[i]);
      StmtLoopVarsWithin(ss[i], PlainParallelLoop, AnyLoop);
      forall j | 0 <= j < |ss| && i != j ensures v !in StmtLoopVars(ss[j], ReductionLoop) {
        StmtLoopVarsWithin(ss[j], ReductionLoop, AnyLoop);
      }
    }
  }

  lemma {:induction false} StmtKindsDisjoint(s: Stmt)
    requires StmtUniqueLoopVars(s)
    decreases s
    ensures StmtLoopVars(s, PlainParallelLoop) !! StmtLoopVars(s, ReductionLoop)
  {
    match s
    case For(_, body, _) =>
      KindsDisjoint(body);
      LoopVarsWithin(body, PlainParallelLoop, AnyLoop);
      LoopVarsWithin(body, ReductionLoop, AnyLoop);
    case Definition =>
    case Assign =>
    case While(body) => KindsDisjoint(body);
    case If(thn, els) =>
      KindsDisjoint(thn);
      KindsDisjoint(els);
      LoopVarsWithin(thn, PlainParallelLoop, AnyLoop);
      LoopVarsWithin(els, ReductionLoop, AnyLoop);
      LoopVarsWithin(thn, ReductionLoop, AnyLoop);
      LoopVarsWithin(els, PlainParallelLoop, AnyLoop);
  }

  // ---------------------------------------------------------------------
  // What elimination computes

  /** Among the loops of `ss`, `sync` holds exactly the parallel ones. */
  predicate Marks(sync: set<Name>, ss: seq<Stmt>) {
    sync * LoopVars(ss, AnyLoop) == LoopVars(ss, ParallelLoop)
  }

  predicate StmtMarks(sync: set<Name>, s: Stmt) {
    sync * StmtLoopVars(s, AnyLoop) == StmtLoopVars(s, ParallelLoop)
  }

  lemma MarksSplit(sync: set<Name>, a: set<Name>, ap: set<Name>, b: set<Name>, bp: set<Name>)
    requires ap <= a && bp <= b && a !! b
    requires sync * (a + b) == ap + bp
    ensures sync * a == ap && sync * b == bp
  {
    assert sync * a == (sync * (a + b)) * a;
    assert sync * b == (sync * (a + b)) * b;
  }

  lemma MarksAfterRemoval(sync: set<Name>, d: set<Name>, b: set<Name>, bp: set<Name>)
    requires sync * b == bp && d !! b
    ensures (sync - d) * b == bp
  {
    assert (sync - d) * b == sync * b;
  }

  lemma ForMarks(sync: set<Name>, s: Stmt)
    requires s.For? && StmtUniqueLoopVars(s) && StmtMarks(sync, s)
    ensures s.loopVar in sync <==> s.par.parallel
    ensures Marks(sync, s.body)
  {
    LoopVarsWithin(s.body, ParallelLoop, AnyLoop);
    MarksSplit(sync, {s.loopVar}, if s.par.parallel then {s.loopVar} else {},
      LoopVars(s.body, AnyLoop), LoopVars(s.body, ParallelLoop));
  }

  lemma MarksSplitFirst(sync: set<Name>, ss: seq<Stmt>)
    requires ss != [] && UniqueLoopVars(ss) && Marks(sync, ss)
    ensures StmtUniqueLoopVars(ss[0]) && UniqueLoopVars(ss[1..])
    ensures StmtMarks(sync, ss[0]) && Marks(sync, ss[1..])
    ensures StmtLoopVars(ss[0], AnyLoop) !! LoopVars(ss[1..], AnyLoop)
  {
    UniqueSplitFirst(ss);
    SplitFirst(ss, AnyLoop);
    SplitFirst(ss, ParallelLoop);
    StmtLoopVarsWithin(ss[0], ParallelLoop, AnyLoop);
    LoopVarsWithin(ss[1..], ParallelLoop, AnyLoop);
    MarksSplit(sync, StmtLoopVars(ss[0], AnyLoop), StmtLoopVars(ss[0], ParallelLoop),
      LoopVars(ss[1..], AnyLoop), LoopVars(ss[1..], ParallelLoop));
  }

  lemma MarksSplitLast(sync: set<Name>, ss: seq<Stmt>)
    requires ss != [] && UniqueLoopVars(ss) && Marks(sync, ss)
    ensures StmtUniqueLoopVars(ss[|ss| - 1]) && UniqueLoopVars(ss[..|ss| - 1])
    ensures StmtMarks(sync, ss[|ss| - 1]) && Marks(sync, ss[..|ss| - 1])
    ensures LoopVars(ss[..|ss| - 1], AnyLoop) !! StmtLoopVars(ss[|ss| - 1], AnyLoop)
  {
    UniqueSplitLast(ss);
    SplitLast(ss, AnyLoop);
    SplitLast(ss, ParallelLoop);
    StmtLoopVarsWithin(ss[|ss| - 1], ParallelLoop, AnyLoop);
    LoopVarsWithin(ss[..|ss| - 1], ParallelLoop, AnyLoop);
    MarksSplit(sync, LoopVars(ss[..|ss| - 1], AnyLoop), LoopVars(ss[..|ss| - 1], ParallelLoop),
      StmtLoopVars(ss[|ss| - 1], AnyLoop), StmtLoopVars(ss[|ss| - 1], ParallelLoop));
  }

  lemma MarksSplitIf(sync: set<Name>, s: Stmt)
    requires s.If? && StmtUniqueLoopVars(s) && StmtMarks(sync, s)
    ensures Marks(sync, s.thn) && Marks(sync, s.els)
  {
    LoopVarsWithin(s.thn, ParallelLoop, AnyLoop);
    LoopVarsWithin(s.els, ParallelLoop, AnyLoop);
    MarksSplit(sync, LoopVars(s.thn, AnyLoop), LoopVars(s.thn, ParallelLoop),
      LoopVars(s.els, AnyLoop), LoopVars(s.els, ParallelLoop));
  }

  /** Tail-aware elimination of one statement removes exactly its tail
      barriers. */
  lemma {:induction false} RemoveParStmtExact(sync: set<Name>, s: Stmt)
    requires StmtUniqueLoopVars(s) && StmtMarks(sync, s)
    decreases s, 0
    ensures RemoveParStmt(sync, s) == sync - StmtParTailVars(s)
  {
    match s
    case For(x, body, par) =>
      ForMarks(sync, s);
      RemoveParStmtsExact(sync, body, x in sync);
    case Definition => assert sync - {} == sync;
    case Assign => assert sync - {} == sync;
    case While(body) => RemoveParFoldExact(sync, body);
    case If(thn, els) =>
      MarksSplitIf(sync, s);
      RemoveParFoldExact(sync, thn);
      ParTailWithin(thn);
      LoopVarsWithin(thn, PlainParallelLoop, AnyLoop);
      MarksAfterRemoval(sync, ParTailVars(thn), LoopVars(els, AnyLoop), LoopVars(els, ParallelLoop));
      RemoveParFoldExact(sync - ParTailVars(thn), els);
      assert sync - ParTailVars(thn) - ParTailVars(els) == sync - StmtParTailVars(s);
  }

  lemma {:induction false} RemoveParFoldExact(sync: set<Name>, ss: seq<Stmt>)
    requires UniqueLoopVars(ss) && Marks(sync, ss)
    decreases ss
    ensures RemoveParFold(sync, ss) == sync - ParTailVars(ss)
  {
    if ss == [] {
      assert sync - ParTailVars(ss) == sync;
    } else {
      MarksSplitFirst(sync, ss);
      SplitFirst(ss, AnyLoop);
      RemoveParStmtExact(sync, ss[0]);
      StmtParTailWithin(ss[0]);
      StmtLoopVarsWithin(ss[0], PlainParallelLoop, AnyLoop);
      MarksAfterRemoval(sync, StmtParTailVars(ss[0]), LoopVars(ss[1..], AnyLoop), LoopVars(ss[1..], ParallelLoop));
      RemoveParFoldExact(sync - StmtParTailVars(ss[0]), ss[1..]);
      assert sync - StmtParTailVars(ss[0]) - ParTailVars(ss[1..]) == sync - ParTailVars(ss);
    }
  }

  lemma {:induction false} RemoveParFoldRevExact(sync: set<Name>, ss: seq<Stmt>)
    requires UniqueLoopVars(ss) && Marks(sync, ss)
    decreases ss
    ensures RemoveParFoldRev(sync, ss) == sync - ParTailVars(ss)
  {
    if ss == [] {
      assert sync - ParTailVars(ss) == sync;
    } else {
      var prefix, last := ss[..|ss| - 1], ss[|ss| - 1];
      MarksSplitLast(sync, ss);
      SplitLast(ss, AnyLoop);
      RemoveParStmtExact(sync, last);
      StmtParTailWithin(last);
      StmtLoopVarsWithin(last, PlainParallelLoop, AnyLoop);
      MarksAfterRemoval(sync, StmtParTailVars(last), LoopVars(prefix, AnyLoop), LoopVars(prefix, ParallelLoop));
      RemoveParFoldRevExact(sync - StmtParTailVars(last), prefix);
      assert sync - StmtParTailVars(last) - ParTailVars(prefix) == sync - ParTailVars(ss);
    }
  }

  /** The last statement of a body loses its own barrier when it is the
      tail of a parallel body, and the tail barriers inside it. */
  lemma {:induction false} RemoveParLastExact(sync: set<Name>, last: Stmt, inPar: bool)
    requires StmtUniqueLoopVars(last) && StmtMarks(sync, last)
    decreases last, 1
    ensures RemoveParLast(sync, last, inPar) == sync - LastTail([last], inPar) - StmtParTailVars(last)
  {
    var tail := LastTail([last], inPar);
    if last.For? {
      ForMarks(sync, last);
      MarksAfterRemoval(sync, tail, LoopVars(last.body, AnyLoop), LoopVars(last.body, ParallelLoop));
      RemoveParStmtsExact(sync - tail, last.body, last.par.parallel);
      var sync' := if inPar && last.par.parallel && !last.par.reduction then sync - {last.loopVar} else sync;
      assert sync' == sync - tail;
    } else {
      RemoveParStmtExact(sync, last);
    }
  }

  /** Tail-aware elimination of a body removes its own tail loop (when the
      body belongs to a parallel loop) and every tail barrier inside it. */
  lemma {:induction false} RemoveParStmtsExact(sync: set<Name>, ss: seq<Stmt>, inPar: bool)
    requires UniqueLoopVars(ss) && Marks(sync, ss)
    decreases ss
    ensures RemoveParStmts(sync, ss, inPar) == sync - LastTail(ss, inPar) - ParTailVars(ss)
  {
    if ss == [] {
      assert sync - LastTail(ss, inPar) - ParTailVars(ss) == sync;
    } else {
      var prefix, last := ss[..|ss| - 1], ss[|ss| - 1];
      var tail := LastTail(ss, inPar);
      assert tail == LastTail([last], inPar);
      MarksSplitLast(sync, ss);
      SplitLast(ss, AnyLoop);
      RemoveParLastExact(sync, last, inPar);
      var afterLast := RemoveParLast(sync, last, inPar);
      StmtParTailWithin(last);
      StmtLoopVarsWithin(last, PlainParallelLoop, AnyLoop);
      if tail != {} {
        assert last.loopVar in StmtLoopVars(last, AnyLoop);
      }
      MarksAfterRemoval(sync, tail + StmtParTailVars(last), LoopVars(prefix, AnyLoop), LoopVars(prefix, ParallelLoop));
      assert afterLast == sync - (tail + StmtParTailVars(last));
      RemoveParFoldRevExact(afterLast, prefix);
      assert afterLast - ParTailVars(prefix) == sync - tail - ParTailVars(ss);
    }
  }

  /** Top-level elimination of one statement removes its root-first loops
      and its tail barriers. */
  lemma {:induction false} RemoveStmtExact(sync: set<Name>, s: Stmt)
    requires StmtUniqueLoopVars(s) && StmtMarks(sync, s)
    decreases s
    ensures RemoveStmt(sync, s) == sync - StmtRootFirstVars(s) - StmtParTailVars(s)
  {
    match s
    case For(x, body, par) =>
      ForMarks(sync, s);
      if par.parallel {
        MarksAfterRemoval(sync, {x}, LoopVars(body, AnyLoop), LoopVars(body, ParallelLoop));
        RemoveParStmtsExact(sync - {x}, body, true);
      } else {
        RemoveStmtsExact(sync, body);
      }
    case Definition => assert sync - {} - {} == sync;
    case Assign => assert sync - {} - {} == sync;
    case While(body) => RemoveStmtsExact(sync, body);
    case If(thn, els) =>
      MarksSplitIf(sync, s);
      RemoveStmtsExact(sync, thn);
      ParTailWithin(thn);
      RootFirstWithin(thn);
      LoopVarsWithin(thn, PlainParallelLoop, AnyLoop);
      LoopVarsWithin(thn, ParallelLoop, AnyLoop);
      var removed := RootFirstVars(thn) + ParTailVars(thn);
      MarksAfterRemoval(sync, removed, LoopVars(els, AnyLoop), LoopVars(els, ParallelLoop));
      assert sync - RootFirstVars(thn) - ParTailVars(thn) == sync - removed;
      RemoveStmtsExact(sync - removed, els);
      assert sync - removed - RootFirstVars(els) - ParTailVars(els)
          == sync - StmtRootFirstVars(s) - StmtParTailVars(s);
  }

  lemma {:induction false} RemoveStmtsExact(sync: set<Name>, ss: seq<Stmt>)
    requires UniqueLoopVars(ss) && Marks(sync, ss)
    decreases ss
    ensures RemoveStmts(sync, ss) == sync - RootFirstVars(ss) - ParTailVars(ss)
  {
    if ss == [] {
      assert sync - RootFirstVars(ss) - ParTailVars(ss) == sync;
    } else {
      MarksSplitFirst(sync, ss);
      SplitFirst(ss, AnyLoop);
      RemoveStmtExact(sync, ss[0]);
      StmtParTailWithin(ss[0]);
      StmtRootFirstWithin(ss[0]);
      StmtLoopVarsWithin(ss[0], PlainParallelLoop, AnyLoop);
      StmtLoopVarsWithin(ss[0], ParallelLoop, AnyLoop);
      var removed := StmtRootFirstVars(ss[0]) + StmtParTailVars(ss[0]);
      MarksAfterRemoval(sync, removed, LoopVars(ss[1..], AnyLoop), LoopVars(ss[1..], ParallelLoop));
      assert sync - StmtRootFirstVars(ss[0]) - StmtParTailVars(ss[0]) == sync - removed;
      RemoveStmtsExact(sync - removed, ss[1..]);
      assert sync - removed - RootFirstVars(ss[1..]) - ParTailVars(ss[1..])
          == sync - RootFirstVars(ss) - ParTailVars(ss);
    }
  }

  /** The elimination theorem: when every loop variable is bound once, the
      barriers kept are exactly the parallel loops that are neither the first
      parallel loop on their path from the root nor a plain parallel loop
      ending the body of a parallel loop. */
  lemma EliminationExact(ss: seq<Stmt>)
    requires UniqueLoopVars(ss)
    ensures RemoveStmts(LoopVars(ss, ParallelLoop), ss)
         == LoopVars(ss, ParallelLoop) - RootFirstVars(ss) - ParTailVars(ss)
  {
    LoopVarsWithin(ss, ParallelLoop, AnyLoop);
    RemoveStmtsExact(LoopVars(ss, ParallelLoop), ss);
  }

  /** The whole pass, under unique loop variables: it succeeds exactly when
      every kept barrier sits at a thread level of its kernel's hierarchy,
      and then returns the kept barriers. */
  lemma IdentifySyncPointsSpec(body: seq<Stmt>, mapping: map<Name, seq<GpuMap>>)
    requires UniqueLoopVars(body)
    ensures var kept := LoopVars(body, ParallelLoop) - RootFirstVars(body) - ParTailVars(body);
      && (IdentifySyncPoints(body, mapping).Ok? <==> KernelsIntraBlock(body, kept, mapping))
      && (IdentifySyncPoints(body, mapping).Ok? ==> IdentifySyncPoints(body, mapping).value == kept)
  {
    EliminationExact(body);
    CollectExact({}, body);
    assert {} + LoopVars(body, ParallelLoop) == LoopVars(body, ParallelLoop);
    CheckFoldSpec(body, LoopVars(body, ParallelLoop) - RootFirstVars(body) - ParTailVars(body), mapping);
  }

  /** A reduction loop keeps its barrier unless it is the first parallel loop
      on its path from the root. */
  lemma ReductionsKept(ss: seq<Stmt>)
    requires UniqueLoopVars(ss)
    ensures LoopVars(ss, ReductionLoop) - RootFirstVars(ss) <= RemoveStmts(LoopVars(ss, ParallelLoop), ss)
  {
    EliminationExact(ss);
    ParTailWithin(ss);
    KindsDisjoint(ss);
    LoopVarsWithin(ss, ReductionLoop, ParallelLoop);
  }

  // ---------------------------------------------------------------------
  // Scenarios (src/cuda/sync.rs:249-300) and consequences of the code

  /** The loop parallelism the scenarios use: parallel, not a reduction. */
  const Plain := LoopPar(true, false)

  /** An empty body needs no barrier. */
  lemma EmptyBodyScenario()
    ensures IdentifySyncPoints([], map[]) == Ok({})
  {
  }

  /** A single parallel loop is the kernel itself: no barrier, whatever its
      (non-empty) hierarchy. */
  lemma SingleLoopScenario(x: Name, levels: seq<GpuMap>)
    requires |levels| > 0
    ensures IdentifySyncPoints([For(x, [], Plain)], map[x := levels]) == Ok({})
  {
    var body := [For(x, [], Plain)];
    assert {} + {x} == {x};
    assert CollectStmt(Ok({}), body[0]) == Ok({x});
    assert body[1..] == [];
    assert CollectStmts(Ok({}), body) == Ok({x});
    assert RemoveStmt({x}, body[0]) == {};
    assert RemoveStmts({x}, body) == {};
    assert CheckStmt(body[0], {}, map[x := levels]) == Pass;
    assert CheckFold(body, {}, map[x := levels]) == Pass;
  }

  /** Two consecutive parallel loops inside a kernel: the first needs a
      barrier, the second ends the body and does not. */
  lemma SubsequentLoopsElimination(x: Name, y: Name, z: Name)
    requires x != y && y != z && x != z
    ensures CollectStmts(Ok({}), [For(x, [For(y, [], Plain), For(z, [], Plain)], Plain)]) == Ok({x, y, z})
    ensures RemoveStmts({x, y, z}, [For(x, [For(y, [], Plain), For(z, [], Plain)], Plain)]) == {y}
  {
    var inner := [For(y, [], Plain), For(z, [], Plain)];
    assert {} + {x} == {x} && {x} + {y} == {x, y} && {x, y} + {z} == {x, y, z};
    assert CollectStmt(Ok({x}), inner[0]) == Ok({x, y});
    assert CollectStmts(Ok({x}), inner) == CollectStmts(Ok({x, y}), inner[1..]);
    assert CollectStmt(Ok({x, y}), inner[1]) == Ok({x, y, z});
    assert inner[1..] == [inner[1]] && inner[1..][1..] == [];
    assert CollectStmts(Ok({x, y}), inner[1..]) == Ok({x, y, z});
    assert inner[..1] == [inner[0]];
    assert RemoveParStmts({y}, [], false) == {y};
    assert RemoveParStmt({y}, inner[0]) == {y};
    assert RemoveParFoldRev({y}, inner[..1]) == {y};
    assert {x, y, z} - {x} - {z} == {y};
    assert RemoveParStmts({x, y, z} - {x}, inner, true) == {y};
    assert CollectStmts(Ok({x}), inner) == Ok({x, y, z});
    assert CollectStmt(Ok({}), For(x, inner, Plain)) == Ok({x, y, z});
    assert [For(x, inner, Plain)][1..] == [];
    assert RemoveStmt({x, y, z}, For(x, inner, Plain)) == {y};
  }

  /** With a block level above a thread level the barrier after `y` is
      inside one block, and the pass succeeds. */
  lemma SubsequentLoopsScenario(x: Name, y: Name, z: Name, blocks: int, threads: int)
    requires x != y && y != z && x != z
    ensures IdentifySyncPoints([For(x, [For(y, [], Plain), For(z, [], Plain)], Plain)],
                               map[x := [Block(blocks), Thread(threads)]]) == Ok({y})
  {
    var inner := [For(y, [], Plain), For(z, [], Plain)];
    SubsequentLoopsElimination(x, y, z);
    assert [Block(blocks), Thread(threads)][1..] == [Thread(threads)];
    assert CheckParStmt(inner[0], {y}, [Thread(threads)]) == Pass;
    assert CheckParStmt(inner[1], {y}, [Thread(threads)]) == Pass;
    assert inner[1..] == [inner[1]] && inner[1..][1..] == [];
    assert CheckParFold(inner[1..], {y}, [Thread(threads)]) == Pass;
    assert CheckParFold(inner, {y}, [Thread(threads)]) == Pass;
    var body := [For(x, inner, Plain)];
    var mapping := map[x := [Block(blocks), Thread(threads)]];
    assert body[1..] == [];
    assert CheckStmt(body[0], {y}, mapping) == Pass;
    assert CheckFold(body, {y}, mapping) == Pass;
  }

  /** The same program with a hierarchy whose second level is not a thread
      level: the barrier after `y` would span blocks, and the pass fails. */
  lemma InterBlockScenario(x: Name, y: Name, z: Name, levels: seq<GpuMap>)
    requires x != y && y != z && x != z
    requires |levels| >= 2 && !levels[1].Thread?
    ensures IdentifySyncPoints([For(x, [For(y, [], Plain), For(z, [], Plain)], Plain)],
                               map[x := levels]) == Err(InterBlockLoop)
  {
    var inner := [For(y, [], Plain), For(z, [], Plain)];
    SubsequentLoopsElimination(x, y, z);
    assert CheckParStmt(inner[0], {y}, levels[1..]) == Fail(InterBlockLoop);
    assert CheckParFold(inner, {y}, levels[1..]) == Fail(InterBlockLoop);
    var body := [For(x, inner, Plain)];
    assert CheckStmt(body[0], {y}, map[x := levels]) == Fail(InterBlockLoop);
    assert CheckFold(body, {y}, map[x := levels]) == Fail(InterBlockLoop);
  }

  /** Without parallel loops nothing is a barrier. */
  lemma NoParallelLoopsScenario(ss: seq<Stmt>, mapping: map<Name, seq<GpuMap>>)
    requires LoopVars(ss, ParallelLoop) == {}
    ensures IdentifySyncPoints(ss, mapping).Ok? ==> IdentifySyncPoints(ss, mapping).value == {}
  {
  }

  /** The outermost parallel loop of a kernel loses its barrier even when it
      is a reduction: the kernel end provides it. */
  lemma RootReductionScenario(x: Name)
    ensures IdentifySyncPoints([For(x, [], LoopPar(true, true))], map[]) == Ok({})
  {
    var body := [For(x, [], LoopPar(true, true))];
    assert {} + {x} == {x};
    assert CollectStmt(Ok({}), body[0]) == Ok({x});
    assert body[1..] == [];
    assert CollectStmts(Ok({}), body) == Ok({x});
    assert RemoveStmt({x}, body[0]) == {};
    assert RemoveStmts({x}, body) == {};
    assert CheckStmt(body[0], {}, map[]) == Pass;
    assert CheckFold(body, {}, map[]) == Pass;
  }

  /** Elimination is not idempotent: a second pass over its own result
      treats the surviving barrier `y` as the outermost candidate and
      removes it. */
  lemma EliminationNotIdempotent(x: Name, y: Name, z: Name)
    requires x != y && y != z && x != z
    ensures var body := [For(x, [For(y, [], Plain), For(z, [], Plain)], Plain)];
      && RemoveStmts({x, y, z}, body) == {y}
      && RemoveStmts({y}, body) == {}
  {
    var inner := [For(y, [], Plain), For(z, [], Plain)];
    SubsequentLoopsElimination(x, y, z);
    assert RemoveStmt({y}, inner[0]) == {};
    assert RemoveStmts({y}, inner) == RemoveStmts({}, inner[1..]);
    assert RemoveStmt({}, inner[1]) == {};
  }
}

=== FILE: type_check.dfy ===
/** The type checker of the Python front end: src/py/type_check.rs. The
    lattice of element sizes and types, coercion with inserted conversions,
    the typing of operators and builtins, and the checking of expressions and
    statements under an environment from variables to types. */
module TypeCheck {
  import opened Results
  import opened Names
  import opened PyAst

  /** A type error; its message text is not modelled, only the position it
      reports. */
  datatype TypeError = TypeError(i: Info)

  /** The environment of variable types. */
  type Vars = map<Name, Type>

  /** The type of a scalar (a tensor of rank 0). */
  function Scalar(sz: ElemSize): Type {
    Type.Tensor(sz, [])
  }

  // ---------------------------------------------------------------------
  // The lattice of element sizes (src/py/type_check.rs:96-119)

  /** `lub_elem_size`. */
  function LubElemSize(lhs: ElemSize, rhs: ElemSize, i: Info): Result<ElemSize, TypeError> {
    match lhs
    case Bool => if rhs == ElemSize.Bool then Ok(rhs) else Err(TypeError(i))
    case I8 => if rhs.IsSignedInteger() then Ok(rhs) else Err(TypeError(i))
    case I16 =>
      if rhs == I8 then Ok(I16)
      else if rhs.IsSignedInteger() then Ok(rhs)
      else Err(TypeError(i))
    case I32 =>
      if rhs == I8 || rhs == I16 then Ok(I32)
      else if rhs.IsSignedInteger() then Ok(rhs)
      else Err(TypeError(i))
    case I64 => if rhs.IsSignedInteger() then Ok(lhs) else Err(TypeError(i))
    case F16 => if rhs.IsFloatingPoint() then Ok(rhs) else Err(TypeError(i))
    case F32 =>
      if rhs == F16 then Ok(F32)
      else if rhs.IsFloatingPoint() then Ok(rhs)
      else Err(TypeError(i))
    case F64 => if rhs.IsFloatingPoint() then Ok(lhs) else Err(TypeError(i))
  }

  /** Both sizes are booleans, both signed integers or both floats. */
  predicate SameClass(lhs: ElemSize, rhs: ElemSize) {
    || (lhs == ElemSize.Bool && rhs == ElemSize.Bool)
    || (lhs.IsSignedInteger() && rhs.IsSignedInteger())
    || (lhs.IsFloatingPoint() && rhs.IsFloatingPoint())
  }

  /** The larger of two sizes in declaration order. */
  function MaxSize(lhs: ElemSize, rhs: ElemSize): ElemSize {
    if lhs.Rank() >= rhs.Rank() then lhs else rhs
  }

  /** The least upper bound exists exactly for sizes of the same class, and
      is then the larger of the two. */
  lemma LubElemSizeSpec(lhs: ElemSize, rhs: ElemSize, i: Info)
    ensures LubElemSize(lhs, rhs, i).Ok? <==> SameClass(lhs, rhs)
    ensures LubElemSize(lhs, rhs, i).Ok? ==> LubElemSize(lhs, rhs, i).value == MaxSize(lhs, rhs)
    ensures LubElemSize(lhs, rhs, i).Err? ==> LubElemSize(lhs, rhs, i).error == TypeError(i)
  {
  }

  /** Every size is its own least upper bound. */
  lemma LubElemSizeRefl(sz: ElemSize, i: Info)
    ensures LubElemSize(sz, sz, i) == Ok(sz)
  {
  }

  /** The least upper bound does not depend on the order of the operands. */
  lemma LubElemSizeComm(lhs: ElemSize, rhs: ElemSize, i: Info)
    ensures LubElemSize(lhs, rhs, i) == LubElemSize(rhs, lhs, i)
  {
    LubElemSizeSpec(lhs, rhs, i);
    LubElemSizeSpec(rhs, lhs, i);
    RankInjective(lhs, rhs);
  }

  /** `compatible_elem_types`. */
  function CompatibleElemTypes(lhs: ElemSize, rhs: ElemSize): bool {
    LubElemSize(lhs, rhs, DefaultInfo).Ok?
  }

  // ---------------------------------------------------------------------
  // Coercion (src/py/type_check.rs:121-185)

  /** `ensure_scalar_type`: a scalar of a compatible size is accepted, and
      converted when its size differs from the expected one. */
  function EnsureScalarType(e: Expr, expected: ElemSize): Result<Expr, TypeError> {
    var actual := GetScalarElemSize(GetType(e));
    if actual.Some? then
      if CompatibleElemTypes(actual.value, expected) then
        if actual.value == expected then Ok(e)
        else Ok(Expr.Convert(e, Scalar(expected)))
      else Err(TypeError(GetInfo(e)))
    else Err(TypeError(GetInfo(e)))
  }

  /** `assert_type`. */
  function AssertType(e: Expr, expected: Type): Outcome<TypeError> {
    if GetType(e) == expected then Pass else Fail(TypeError(GetInfo(e)))
  }

  /** `coerce_type`. With `arityCheck` false this is the function as written,
      which zips a tuple literal with the expected element types and so
      drops the excess on either side; with it true, a tuple literal of the
      wrong arity is rejected. */
  function CoerceTypeWith(arityCheck: bool, e: Expr, expected: Type): Result<Expr, TypeError>
    decreases e
  {
    if AssertType(e, expected).Pass? then Ok(e)
    else
      var actual := GetType(e);
      if actual.Tensor? && expected.Tensor? then
        if |actual.shape| == 0 && |expected.shape| == 0 then EnsureScalarType(e, expected.sz)
        else if actual.sz == expected.sz && actual.shape == expected.shape then Ok(e)
        else Err(TypeError(GetInfo(e)))
      else if actual.Tuple? && expected.Tuple? then
        match e
        case Tuple(elems, _, i) =>
          if arityCheck && |elems| != |expected.elems| then Err(TypeError(i))
          else
            var elems' :- CoerceElemsWith(arityCheck, elems, expected.elems);
            Ok(Expr.Tuple(elems', Type.Tuple(TypesOf(elems')), i))
        case _ => Err(TypeError(GetInfo(e)))
      else Err(TypeError(GetInfo(e)))
  }

  /** Coerces the zipped pairs of expressions and types, stopping at the
      first error. */
  function CoerceElemsWith(arityCheck: bool, es: seq<Expr>, tys: seq<Type>): Result<seq<Expr>, TypeError>
    decreases es
  {
    if es == [] || tys == [] then Ok([])
    else
      var head :- CoerceTypeWith(arityCheck, es[0], tys[0]);
      var tail :- CoerceElemsWith(arityCheck, es[1..], tys[1..]);
      Ok([head] + tail)
  }

  /** The types of a sequence of expressions. */
  function TypesOf(es: seq<Expr>): seq<Type> {
    seq(|es|, k requires 0 <= k < |es| => GetType(es[k]))
  }

  /** Coercion as the source writes it. */
  function CoerceTypeAsWritten(e: Expr, expected: Type): Result<Expr, TypeError> {
    CoerceTypeWith(false, e, expected)
  }

  /** Coercion with the arity of tuple literals checked; the rest of the
      checker uses this one. It accepts fewer expressions than the version as
      written, and gives the same result on those it accepts
      (`CoerceAgrees`). */
  function CoerceType(e: Expr, expected: Type): Result<Expr, TypeError> {
    CoerceTypeWith(true, e, expected)
  }

  /** A scalar is accepted exactly when its size is compatible with the
      expected one; it is returned as it is when the sizes agree and wrapped
      in a conversion otherwise. Anything else is rejected. */
  lemma EnsureScalarTypeSpec(e: Expr, expected: ElemSize)
    ensures var r := EnsureScalarType(e, expected);
      && (r.Ok? <==> GetType(e).Tensor? && GetType(e).shape == [] && SameClass(GetType(e).sz, expected))
      && (r.Ok? ==> GetType(r.value) == Scalar(expected))
      && (r.Ok? && GetType(e) == Scalar(expected) ==> r.value == e)
      && (r.Ok? && GetType(e) != Scalar(expected) ==> r.value == Expr.Convert(e, Scalar(expected)))
  {
    var actual := GetScalarElemSize(GetType(e));
    if actual.Some? {
      LubElemSizeSpec(actual.value, expected, DefaultInfo);
    }
  }

  /** An expression that already has the expected type is returned
      unchanged, by both versions of coercion. */
  lemma CoerceSameType(arityCheck: bool, e: Expr)
    ensures CoerceTypeWith(arityCheck, e, GetType(e)) == Ok(e)
  {
  }

  /** Between scalars, coercion is exactly `ensure_scalar_type`: it succeeds
      iff the sizes are compatible and converts only when they differ. */
  lemma CoerceScalar(e: Expr, sz: ElemSize, expected: ElemSize)
    requires GetType(e) == Scalar(sz)
    ensures CoerceType(e, Scalar(expected)).Ok? <==> SameClass(sz, expected)
    ensures CoerceType(e, Scalar(expected)).Ok? ==>
      CoerceType(e, Scalar(expected)).value == if sz == expected then e else Expr.Convert(e, Scalar(expected))
  {
    EnsureScalarTypeSpec(e, expected);
  }

  /** Whatever the arity-checked coercion accepts, the coercion as written
      accepts too, with the same result: the two differ only on tuple
      literals of the wrong arity. */
  lemma {:induction false} CoerceAgrees(e: Expr, expected: Type)
    decreases e
    ensures CoerceType(e, expected).Ok? ==> CoerceTypeAsWritten(e, expected) == CoerceType(e, expected)
  {
    if AssertType(e, expected).Fail? && GetType(e).Tuple? && expected.Tuple? && e.Tuple? {
      CoerceElemsAgree(e.elems, expected.elems);
    }
  }

  lemma {:induction false} CoerceElemsAgree(es: seq<Expr>, tys: seq<Type>)
    decreases es
    ensures CoerceElemsWith(true, es, tys).Ok? ==> CoerceElemsWith(false, es, tys) == CoerceElemsWith(true, es, tys)
  {
    if es != [] && tys != [] {
      CoerceAgrees(es[0], tys[0]);
      CoerceElemsAgree(es[1..], tys[1..]);
    }
  }

  /** With the arity checked, a coerced expression has exactly the expected
      type. */
  lemma {:induction false} CoerceTypeResult(e: Expr, expected: Type)
    decreases e
    ensures CoerceType(e, expected).Ok? ==> GetType(CoerceType(e, expected).value) == expected
  {
    if AssertType(e, expected).Fail? {
      var actual := GetType(e);
      if actual.Tensor? && expected.Tensor? {
        EnsureScalarTypeSpec(e, expected.sz);
      } else if actual.Tuple? && expected.Tuple? && e.Tuple? && |e.elems| == |expected.elems| {
        CoerceElemsResult(e.elems, expected.elems);
        var r := CoerceElemsWith(true, e.elems, expected.elems);
        if r.Ok? {
          assert TypesOf(r.value) == expected.elems;
        }
      }
    }
  }

  lemma {:induction false} CoerceElemsResult(es: seq<Expr>, tys: seq<Type>)
    decreases es
    requires |es| == |tys|
    ensures var r := CoerceElemsWith(true, es, tys);
      r.Ok? ==> |r.value| == |tys| && forall k :: 0 <= k < |tys| ==> GetType(r.value[k]) == tys[k]
  {
    if es != [] && tys != [] {
      CoerceTypeResult(es[0], tys[0]);
      CoerceElemsResult(es[1..], tys[1..]);
      var r := CoerceElemsWith(true, es, tys);
      if r.Ok? {
        var head := CoerceType(es[0], tys[0]).value;
        var tail := CoerceElemsWith(true, es[1..], tys[1..]).value;
        assert r.value == [head] + tail;
        forall k | 0 <= k < |tys|
          ensures GetType(r.value[k]) == tys[k]
        {
          if k > 0 {
            assert r.value[k] == tail[k - 1];
          }
        }
      }
    }
  }

  /** As written, coercing the one-element tuple literal `(1,)` to a pair of
      64-bit integers succeeds, and the result is typed as a one-element
      tuple rather than as the pair; with the arity checked it is an error. */
  lemma TupleArityMismatch(i: Info)
    ensures var one := Expr.Int(1, Scalar(I64), i);
      var lit := Expr.Tuple([one], Type.Tuple([Scalar(I64)]), i);
      var pair := Type.Tuple([Scalar(I64), Scalar(I64)]);
      && CoerceTypeAsWritten(lit, pair) == Ok(lit)
      && GetType(CoerceTypeAsWritten(lit, pair).value) != pair
      && CoerceType(lit, pair).Err?
  {
    var one := Expr.Int(1, Scalar(I64), i);
    var lit := Expr.Tuple([one], Type.Tuple([Scalar(I64)]), i);
    var pair := Type.Tuple([Scalar(I64), Scalar(I64)]);
    assert [one][1..] == [] && pair.elems[1..] == [Scalar(I64)];
    assert CoerceTypeWith(false, one, Scalar(I64)) == Ok(one);
    assert CoerceElemsWith(false, [], [Scalar(I64)]) == Ok([]);
    assert [one] + [] == [one];
    assert CoerceElemsWith(false, [one], pair.elems) == Ok([one]);
    assert TypesOf([one]) == [Scalar(I64)];
  }

  /** As written, a tuple literal longer than the target loses its excess
      elements: `(a, b, c)` coerced to a pair of 64-bit integers succeeds as
      `(a, b)` with the pair type, and with the arity checked it is an
      error. */
  lemma TupleExcessDropped(i: Info)
    ensures var a, b, c := Expr.Int(1, Scalar(I64), i), Expr.Int(2, Scalar(I64), i), Expr.Int(3, Scalar(I64), i);
      var triple := Type.Tuple([Scalar(I64), Scalar(I64), Scalar(I64)]);
      var pair := Type.Tuple([Scalar(I64), Scalar(I64)]);
      && CoerceTypeAsWritten(Expr.Tuple([a, b, c], triple, i), pair) == Ok(Expr.Tuple([a, b], pair, i))
      && CoerceType(Expr.Tuple([a, b, c], triple, i), pair).Err?
  {
    var a, b, c := Expr.Int(1, Scalar(I64), i), Expr.Int(2, Scalar(I64), i), Expr.Int(3, Scalar(I64), i);
    var pair := Type.Tuple([Scalar(I64), Scalar(I64)]);
    assert [a, b, c][1..] == [b, c] && [b, c][1..] == [c];
    assert pair.elems[1..] == [Scalar(I64)] && pair.elems[1..][1..] == [];
    assert CoerceTypeWith(false, a, Scalar(I64)) == Ok(a);
    assert CoerceTypeWith(false, b, Scalar(I64)) == Ok(b);
    assert CoerceElemsWith(false, [c], []) == Ok([]);
    assert [b] + [] == [b] && [a] + [b] == [a, b];
    assert CoerceElemsWith(false, [b, c], [Scalar(I64)]) == Ok([b]);
    assert CoerceElemsWith(false, [a, b, c], pair.elems) == Ok([a, b]);
    assert TypesOf([a, b]) == pair.elems;
  }

  // ---------------------------------------------------------------------
  // The lattice of types (src/py/type_check.rs:187-199)

  /** `lub_type`. */
  function LubType(l: Type, r: Type, i: Info): Result<Type, TypeError> {
    var lsz, rsz := GetScalarElemSize(l), GetScalarElemSize(r);
    if lsz.Some? && rsz.Some? then
      var sz :- LubElemSize(lsz.value, rsz.value, i);
      Ok(Scalar(sz))
    else if lsz.None? && rsz.None? && l == r then Ok(l)
    else Err(TypeError(i))
  }

  /** Two scalars unify to the scalar of their least upper bound size, two
      non-scalars only when they are equal, and a scalar never unifies with a
      non-scalar. */
  lemma LubTypeSpec(l: Type, r: Type, i: Info)
    ensures var u := LubType(l, r, i);
      var scalars := l.Tensor? && l.shape == [] && r.Tensor? && r.shape == [];
      && (scalars ==> (u.Ok? <==> SameClass(l.sz, r.sz)))
      && (scalars && u.Ok? ==> u.value == Scalar(MaxSize(l.sz, r.sz)))
      && (GetScalarElemSize(l).None? && GetScalarElemSize(r).None? ==> u == if l == r then Ok(l) else Err(TypeError(i)))
      && (GetScalarElemSize(l).Some? != GetScalarElemSize(r).Some? ==> u.Err?)
  {
    if l.Tensor? && l.shape == [] && r.Tensor? && r.shape == [] {
      LubElemSizeSpec(l.sz, r.sz, i);
    }
  }

  /** Every type unifies with itself. */
  lemma LubTypeRefl(t: Type, i: Info)
    ensures LubType(t, t, i) == Ok(t)
  {
    if GetScalarElemSize(t).Some? {
      LubElemSizeRefl(t.sz, i);
    }
  }

  /** Unification does not depend on the order of the operands. */
  lemma LubTypeComm(l: Type, r: Type, i: Info)
    ensures LubType(l, r, i) == LubType(r, l, i)
  {
    var lsz, rsz := GetScalarElemSize(l), GetScalarElemSize(r);
    if lsz.Some? && rsz.Some? {
      LubElemSizeComm(lsz.value, rsz.value, i);
    }
  }

  /** An expression always coerces to a type its own type unifies to. */
  lemma CoerceToLub(e: Expr, other: Type, i: Info)
    requires LubType(GetType(e), other, i).Ok?
    ensures CoerceType(e, LubType(GetType(e), other, i).value).Ok?
  {
    var t := GetType(e);
    LubTypeSpec(t, other, i);
    if GetScalarElemSize(t).Some? {
      var u := LubType(t, other, i).value;
      LubElemSizeSpec(t.sz, other.sz, i);
      assert u == Scalar(MaxSize(t.sz, other.sz));
      EnsureScalarTypeSpec(e, u.sz);
      LubElemSizeSpec(t.sz, u.sz, DefaultInfo);
    }
  }

  // ---------------------------------------------------------------------
  // Operators and builtins (src/py/type_check.rs:201-369)

  /** `type_check_builtin`, given the checked arguments. */
  function TypeCheckBuiltin(func: Builtin, args: seq<Expr>, i: Info): Result<Expr, TypeError> {
    match func
    case Inf =>
      if |args| == 0 then Ok(Expr.Builtin(func, args, Scalar(F64), i)) else Err(TypeError(i))
    case Exp | Log | Cos | Sin | Sqrt =>
      if |args| == 1 then
        var ty := GetType(args[0]);
        if IsFloatingPoint(ty) then Ok(Expr.Builtin(func, args, ty, i)) else Err(TypeError(i))
      else Err(TypeError(i))
    case Tanh =>
      if |args| == 1 then
        var ty := GetType(args[0]);
        match GetScalarElemSize(ty)
        case Some(F32) => Ok(Expr.Builtin(func, args, ty, i))
        case Some(F64) => Ok(Expr.Builtin(func, args, ty, i))
        case _ => Err(TypeError(i))
      else Err(TypeError(i))
    case Abs =>
      if |args| == 1 then
        var ty := GetType(args[0]);
        if IsSignedInteger(ty) || IsFloatingPoint(ty) then Ok(Expr.Builtin(func, args, ty, i))
        else Err(TypeError(i))
      else Err(TypeError(i))
    case Convert(sz) =>
      if |args| == 1 then
        if GetScalarElemSize(GetType(args[0])).Some? then Ok(Expr.Convert(args[0], Scalar(sz)))
        else Err(TypeError(i))
      else Err(TypeError(i))
    case Max | Min | Atan2 =>
      if |args| == 2 then
        var ty :- LubType(GetType(args[0]), GetType(args[1]), i);
        var sz := GetScalarElemSize(ty);
        if (sz.Some? && func != Atan2) || (sz == Some(F64) && func == Atan2) then
          var fst :- CoerceType(args[0], ty);
          var snd :- CoerceType(args[1], ty);
          Ok(Expr.Builtin(func, [fst, snd], ty, i))
        else Err(TypeError(i))
      else Err(TypeError(i))
    case _ => Err(TypeError(i))
  }

  /** A builtin always has a scalar type; `atan2` is always a 64-bit float,
      `tanh` never a 16-bit float, the float functions keep the float type of
      their argument, and both operands of a binary builtin have the
      builtin's type. A builtin applied to the wrong number of arguments is an
      error. */
  lemma TypeCheckBuiltinSpec(func: Builtin, args: seq<Expr>, i: Info)
    ensures var r := TypeCheckBuiltin(func, args, i);
      && (r.Ok? ==> GetScalarElemSize(GetType(r.value)).Some?)
      && (r.Ok? && func == Atan2 ==> GetType(r.value) == Scalar(F64))
      && (r.Ok? && func == Tanh ==> GetType(r.value) == GetType(args[0]) != Scalar(F16))
      && (r.Ok? && func in {Exp, Log, Cos, Sin, Sqrt} ==> GetType(r.value) == GetType(args[0]) && IsFloatingPoint(GetType(r.value)))
      && (r.Ok? && func in {Max, Min, Atan2} ==>
            r.value.Builtin? && |r.value.args| == 2 && TypesOf(r.value.args) == [r.value.ty, r.value.ty])
      && (r.Ok? && func.Convert? ==> r.value == Expr.Convert(args[0], Scalar(func.sz)))
      && (|args| != Arity(func) ==> r.Err?)
  {
    var r := TypeCheckBuiltin(func, args, i);
    if r.Ok? && func in {Max, Min, Atan2} {
      var ty := LubType(GetType(args[0]), GetType(args[1]), i).value;
      CoerceTypeResult(args[0], ty);
      CoerceTypeResult(args[1], ty);
    }
  }

  /** When a unary builtin or `inf` is accepted: `inf` takes no arguments and
      is a 64-bit float; the float functions accept exactly a float scalar,
      `tanh` exactly a 32- or 64-bit float scalar, `abs` exactly a signed
      integer or float scalar, all three keeping its type; a conversion
      accepts exactly a scalar. */
  lemma TypeCheckBuiltinUnary(func: Builtin, args: seq<Expr>, i: Info)
    ensures var r := TypeCheckBuiltin(func, args, i);
      && (func == Inf && args == [] ==> r.Ok? && GetType(r.value) == Scalar(F64))
      && (func in {Exp, Log, Cos, Sin, Sqrt} && |args| == 1 ==>
            (r.Ok? <==> IsFloatingPoint(GetType(args[0]))))
      && (func == Tanh && |args| == 1 ==>
            (r.Ok? <==> GetType(args[0]) == Scalar(F32) || GetType(args[0]) == Scalar(F64)))
      && (func == Abs && |args| == 1 ==>
            (r.Ok? <==> IsSignedInteger(GetType(args[0])) || IsFloatingPoint(GetType(args[0]))))
      && (func == Abs && r.Ok? ==> GetType(r.value) == GetType(args[0]))
      && (func.Convert? && |args| == 1 ==> (r.Ok? <==> GetScalarElemSize(GetType(args[0])).Some?))
  {
    if func == Tanh && |args| == 1 {
      ScalarElemSize(GetType(args[0]), F32);
      ScalarElemSize(GetType(args[0]), F64);
    }
  }

  /** When a binary builtin is accepted: `max` and `min` exactly when the
      operands unify to a scalar type, `atan2` exactly when they unify to a
      64-bit float; the result has the unified type, and both operands are
      coerced to it. */
  lemma TypeCheckBuiltinBinary(func: Builtin, args: seq<Expr>, i: Info)
    ensures var r := TypeCheckBuiltin(func, args, i);
      func in {Max, Min, Atan2} && |args| == 2 ==>
        var u := LubType(GetType(args[0]), GetType(args[1]), i);
        && (func != Atan2 ==> (r.Ok? <==> u.Ok? && GetScalarElemSize(u.value).Some?))
        && (func == Atan2 ==> (r.Ok? <==> u.Ok? && u.value == Scalar(F64)))
        && (r.Ok? ==> GetType(r.value) == u.value)
        && (r.Ok? ==> r.value.args == [CoerceType(args[0], u.value).value, CoerceType(args[1], u.value).value])
  {
    if func in {Max, Min, Atan2} && |args| == 2 {
      var u := LubType(GetType(args[0]), GetType(args[1]), i);
      if u.Ok? {
        ScalarElemSize(u.value, F64);
        CoerceToLub(args[0], GetType(args[1]), i);
        LubTypeComm(GetType(args[0]), GetType(args[1]), i);
        CoerceToLub(args[1], GetType(args[0]), i);
      }
    }
  }

  /** The number of arguments a builtin takes (none for the builtins the
      checker rejects outright). */
  function Arity(func: Builtin): nat {
    match func
    case Inf => 0
    case Max | Min | Atan2 => 2
    case Label | GpuContext => 0
    case _ => 1
  }

  /** `type_check_unop`. */
  function TypeCheckUnop(op: UnOp, arg: Expr, i: Info): Result<Type, TypeError> {
    var ty := GetType(arg);
    match op
    case Sub => if IsSignedInteger(ty) || IsFloatingPoint(ty) then Ok(ty) else Err(TypeError(i))
    case Not => if IsBoolean(ty) then Ok(ty) else Err(TypeError(i))
    case BitNeg => if IsSignedInteger(ty) then Ok(ty) else Err(TypeError(i))
  }

  /** A unary operator keeps the type of its operand, which is a scalar of the
      operator's class. */
  lemma TypeCheckUnopSpec(op: UnOp, arg: Expr, i: Info)
    ensures var r := TypeCheckUnop(op, arg, i);
      && (r.Ok? ==> r.value == GetType(arg) && GetScalarElemSize(r.value).Some?)
      && (op == UnOp.Not ==> (r.Ok? <==> GetType(arg) == Scalar(ElemSize.Bool)))
      && (op == BitNeg ==> (r.Ok? <==> GetType(arg).Tensor? && GetType(arg).shape == [] && GetType(arg).sz.IsSignedInteger()))
      && (op == UnOp.Sub ==> (r.Ok? <==> GetType(arg).Tensor? && GetType(arg).shape == [] && GetType(arg).sz != ElemSize.Bool))
  {
    var ty := GetType(arg);
    if ty.Tensor? {
      ScalarElemSize(ty, ty.sz);
      ElemSizeClasses(ty.sz);
    }
  }

  predicate IsComparison(op: BinOp) {
    op in {Eq, Neq, Leq, Geq, Lt, Gt}
  }

  predicate IsBitwise(op: BinOp) {
    op in {BitAnd, BitOr, BitXor, BitShl, BitShr}
  }

  /** The result type of a binary operator applied to operands of the
      unified type `ty` (src/py/type_check.rs:320-367). */
  function BinOpType(op: BinOp, ty: Type, i: Info): Result<Type, TypeError> {
    match op
    case Add | Sub | Mul | Div =>
      if IsSignedInteger(ty) || IsFloatingPoint(ty) then Ok(ty) else Err(TypeError(i))
    case FloorDiv | Mod => if IsSignedInteger(ty) then Ok(ty) else Err(TypeError(i))
    case Pow =>
      if ty == Scalar(F32) || ty == Scalar(F64) then Ok(ty) else Err(TypeError(i))
    case And | Or => if IsBoolean(ty) then Ok(ty) else Err(TypeError(i))
    case BitAnd | BitOr | BitXor | BitShl | BitShr =>
      if IsSignedInteger(ty) then Ok(ty) else Err(TypeError(i))
    case Eq | Neq | Leq | Geq | Lt | Gt =>
      if GetScalarElemSize(ty).Some? then Ok(Scalar(ElemSize.Bool)) else Err(TypeError(i))
  }

  /** What each operator demands of the unified operand type, and what it
      yields: a comparison yields a boolean, every other operator the
      unified type itself. */
  lemma BinOpTypeSpec(op: BinOp, ty: Type, i: Info)
    ensures var r := BinOpType(op, ty, i);
      && (r.Ok? && IsComparison(op) ==> r.value == Scalar(ElemSize.Bool) && GetScalarElemSize(ty).Some?)
      && (r.Ok? && !IsComparison(op) ==> r.value == ty)
      && (r.Ok? && (op in {FloorDiv, Mod} || IsBitwise(op)) ==> IsSignedInteger(r.value))
      && (r.Ok? && op == Pow ==> r.value in {Scalar(F32), Scalar(F64)})
      && (r.Ok? && op in {And, Or} ==> r.value == Scalar(ElemSize.Bool))
  {
    ScalarElemSize(ty, ElemSize.Bool);
  }

  /** `type_check_binop`: unify the operand types, coerce both operands to
      the unified type, then type the operator. */
  function TypeCheckBinop(lhs: Expr, op: BinOp, rhs: Expr, i: Info): Result<(Expr, Type, Expr), TypeError> {
    var ty :- LubType(GetType(lhs), GetType(rhs), i);
    var lhs' :- CoerceType(lhs, ty);
    var rhs' :- CoerceType(rhs, ty);
    var resTy :- BinOpType(op, ty, i);
    Ok((lhs', resTy, rhs'))
  }

  /** A binary operation is well typed exactly when the operand types unify
      and the unified type suits the operator. Both coerced operands then
      have the unified type, and the result type is the operator's result
      type for it. */
  lemma TypeCheckBinopSpec(lhs: Expr, op: BinOp, rhs: Expr, i: Info)
    ensures var r := TypeCheckBinop(lhs, op, rhs, i);
      var u := LubType(GetType(lhs), GetType(rhs), i);
      && (r.Ok? <==> u.Ok? && BinOpType(op, u.value, i).Ok?)
      && (r.Ok? ==> GetType(r.value.0) == u.value && GetType(r.value.2) == u.value)
      && (r.Ok? ==> Ok(r.value.1) == BinOpType(op, u.value, i))
  {
    var u := LubType(GetType(lhs), GetType(rhs), i);
    if u.Ok? {
      var ty := u.value;
      CoerceToLub(lhs, GetType(rhs), i);
      LubTypeComm(GetType(lhs), GetType(rhs), i);
      CoerceToLub(rhs, GetType(lhs), i);
      CoerceTypeResult(lhs, ty);
      CoerceTypeResult(rhs, ty);
    }
  }

  // ---------------------------------------------------------------------
  // Expressions (src/py/type_check.rs:371-516)

  /** The number of dimensions an index of the given type selects. */
  function IndexDims(ty: Type): Option<nat> {
    match ty
    case Tensor(_, shape) => if |shape| == 0 then Some(1) else None
    case Tuple(elems) => Some(|elems|)
    case _ => None
  }

  /** The type an index of the given type is coerced to. */
  function IndexType(ty: Type): Type {
    match ty
    case Tuple(elems) => Type.Tuple(seq(|elems|, _ => Scalar(I64)))
    case _ => Scalar(I64)
  }

  /** `type_check_expr`. */
  function TypeCheckExpr(vars: Vars, e: Expr): Result<Expr, TypeError>
    decreases e
  {
    match e
    case Var(id, _, i) =>
      if id in vars && vars[id] != Unknown then Ok(Expr.Var(id, vars[id], i))
      else Err(TypeError(i))
    case String(s, _, i) => Ok(Expr.String(s, Type.String, i))
    case Bool(b, _, i) => Ok(Expr.Bool(b, Scalar(ElemSize.Bool), i))
    case Int(n, _, i) => Ok(Expr.Int(n, Scalar(I64), i))
    case Float(f, _, i) => Ok(Expr.Float(f, Scalar(F64), i))
    case UnOp(op, arg, _, i) =>
      var arg' :- TypeCheckExpr(vars, arg);
      var ty :- TypeCheckUnop(op, arg', i);
      Ok(Expr.UnOp(op, arg', ty, i))
    case BinOp(lhs, op, rhs, _, i) =>
      var lhs' :- TypeCheckExpr(vars, lhs);
      var rhs' :- TypeCheckExpr(vars, rhs);
      var res :- TypeCheckBinop(lhs', op, rhs', i);
      Ok(Expr.BinOp(res.0, op, res.2, res.1, i))
    case IfExpr(cond, thn, els, _, i) =>
      var cond' :- TypeCheckExpr(vars, cond);
      if IsBoolean(GetType(cond')) then
        var thn' :- TypeCheckExpr(vars, thn);
        var els' :- TypeCheckExpr(vars, els);
        var ty :- LubType(GetType(thn'), GetType(els'), i);
        var thn'' :- CoerceType(thn', ty);
        var els'' :- CoerceType(els', ty);
        Ok(Expr.IfExpr(cond', thn'', els'', ty, i))
      else Err(TypeError(i))
    case Subscript(target, idx, _, i) =>
      var target' :- TypeCheckExpr(vars, target);
      if idx.String? then
        var tty := GetType(target');
        if tty.Dict? then
          var ty := Lookup(tty.fields, idx.s);
          if ty.Some? then Ok(Expr.Subscript(target', Expr.String(idx.s, Type.String, idx.i), ty.value, i))
          else Err(TypeError(idx.i))
        else Err(TypeError(idx.i))
      else
        var idx' :- TypeCheckExpr(vars, idx);
        var elemTy :- SubscriptType(GetType(target'), GetType(idx'), i);
        var idx'' :- CoerceType(idx', IndexType(GetType(idx')));
        Ok(Expr.Subscript(target', idx'', elemTy, i))
    case Tuple(elems, _, i) =>
      var elems' :- TypeCheckExprs(vars, elems);
      Ok(Expr.Tuple(elems', Type.Tuple(TypesOf(elems')), i))
    case Dict(fields, _, i) =>
      var fields' :- TypeCheckFields(vars, fields);
      Ok(Expr.Dict(fields', Type.Dict(FieldTypes(fields')), i))
    case Builtin(func, args, _, i) =>
      var args' :- TypeCheckExprs(vars, args);
      TypeCheckBuiltin(func, args', i)
    case Convert(_, _) => Ok(e)
  }

  /** The element type of subscripting a target of type `tty` with an index
      of type `ity` (src/py/type_check.rs:434-454): the index selects the
      leading dimensions of a tensor. */
  function SubscriptType(tty: Type, ity: Type, i: Info): Result<Type, TypeError> {
    if tty.Tensor? then
      var dims := IndexDims(ity);
      if dims.None? then Err(TypeError(i))
      else if dims.value <= |tty.shape| then Ok(Type.Tensor(tty.sz, tty.shape[dims.value..]))
      else Err(TypeError(i))
    else Err(TypeError(i))
  }

  /** `type_check_exprs`: checks each expression, stopping at the first
      error. */
  function TypeCheckExprs(vars: Vars, es: seq<Expr>): Result<seq<Expr>, TypeError>
    decreases es
  {
    if es == [] then Ok([])
    else
      var head :- TypeCheckExpr(vars, es[0]);
      var tail :- TypeCheckExprs(vars, es[1..]);
      Ok([head] + tail)
  }

  /** Checks the values of a dictionary literal, keeping the keys. */
  function TypeCheckFields(vars: Vars, fields: seq<Entry<Expr>>): Result<seq<Entry<Expr>>, TypeError>
    decreases fields
  {
    if fields == [] then Ok([])
    else
      assert fields[0] in fields;
      var value :- TypeCheckExpr(vars, fields[0].value);
      var tail :- TypeCheckFields(vars, fields[1..]);
      Ok([Entry(fields[0].key, value)] + tail)
  }

  /** The dictionary type of checked fields. */
  function FieldTypes(fields: seq<Entry<Expr>>): seq<Entry<Type>> {
    seq(|fields|, k requires 0 <= k < |fields| => Entry(fields[k].key, GetType(fields[k].value)))
  }

  /** A variable is well typed exactly when the environment gives it a known
      type, which it then carries; literals get their fixed types. */
  lemma TypeCheckLeaves(vars: Vars, e: Expr)
    ensures var r := TypeCheckExpr(vars, e);
      && (e.Var? ==> (r.Ok? <==> e.id in vars && vars[e.id] != Unknown))
      && (e.Var? && r.Ok? ==> GetType(r.value) == vars[e.id])
      && (e.String? ==> r.Ok? && GetType(r.value) == Type.String)
      && (e.Bool? ==> r.Ok? && GetType(r.value) == Scalar(ElemSize.Bool))
      && (e.Int? ==> r.Ok? && GetType(r.value) == Scalar(I64))
      && (e.Float? ==> r.Ok? && GetType(r.value) == Scalar(F64))
      && (e.Convert? ==> r == Ok(e))
  {
  }

  /** Checking a list of expressions checks each one in place. */
  lemma {:induction false} TypeCheckExprsEach(vars: Vars, es: seq<Expr>)
    decreases es
    ensures var r := TypeCheckExprs(vars, es);
      && (r.Ok? <==> forall k :: 0 <= k < |es| ==> TypeCheckExpr(vars, es[k]).Ok?)
      && (r.Ok? ==> |r.value| == |es| && forall k :: 0 <= k < |es| ==> Ok(r.value[k]) == TypeCheckExpr(vars, es[k]))
  {
    if es != [] {
      TypeCheckExprsEach(vars, es[1..]);
      var r := TypeCheckExprs(vars, es);
      if forall k :: 0 <= k < |es| ==> TypeCheckExpr(vars, es[k]).Ok? {
        assert forall k :: 0 <= k < |es[1..]| ==> TypeCheckExpr(vars, es[1..][k]).Ok? by {
          forall k | 0 <= k < |es[1..]| ensures TypeCheckExpr(vars, es[1..][k]).Ok? {
            assert es[1..][k] == es[k + 1];
          }
        }
      }
      if r.Ok? {
        var tail := TypeCheckExprs(vars, es[1..]).value;
        assert r.value == [TypeCheckExpr(vars, es[0]).value] + tail;
        forall k | 0 <= k < |es| ensures Ok(r.value[k]) == TypeCheckExpr(vars, es[k]) {
          if k > 0 {
            assert r.value[k] == tail[k - 1] && es[k] == es[1..][k - 1];
          }
        }
      }
    }
  }

  /** Subscripting with a non-string index: the target must be a tensor, the
      index a scalar or a tuple selecting at most as many dimensions as the
      tensor has; the result keeps the element size and drops the selected
      dimensions, and the index is coerced to 64-bit integers. */
  lemma SubscriptSpec(vars: Vars, target: Expr, idx: Expr, ty: Type, i: Info)
    requires !idx.String?
    ensures var r := TypeCheckExpr(vars, Expr.Subscript(target, idx, ty, i));
      var t := TypeCheckExpr(vars, target);
      var x := TypeCheckExpr(vars, idx);
      && (r.Ok? ==>
            && t.Ok? && x.Ok? && GetType(t.value).Tensor?
            && IndexDims(GetType(x.value)).Some?
            && var k := IndexDims(GetType(x.value)).value;
            && k <= |GetType(t.value).shape|
            && GetType(r.value) == Type.Tensor(GetType(t.value).sz, GetType(t.value).shape[k..])
            && GetType(r.value.idx) == IndexType(GetType(x.value)))
      && ((t.Ok? && x.Ok? && GetType(t.value).Tensor? && IndexDims(GetType(x.value)).Some?
            && IndexDims(GetType(x.value)).value > |GetType(t.value).shape|) ==> r.Err?)
  {
    var r := TypeCheckExpr(vars, Expr.Subscript(target, idx, ty, i));
    var x := TypeCheckExpr(vars, idx);
    if r.Ok? {
      CoerceTypeResult(x.value, IndexType(GetType(x.value)));
    }
  }

  /** A scalar index of a tensor that is a 32-bit integer is converted to a
      64-bit one. */
  lemma SubscriptConvertsIndex(vars: Vars, target: Expr, idx: Expr, ty: Type, i: Info)
    requires !idx.String?
    requires TypeCheckExpr(vars, idx).Ok? && GetType(TypeCheckExpr(vars, idx).value) == Scalar(I32)
    requires TypeCheckExpr(vars, Expr.Subscript(target, idx, ty, i)).Ok?
    ensures TypeCheckExpr(vars, Expr.Subscript(target, idx, ty, i)).value.idx
      == Expr.Convert(TypeCheckExpr(vars, idx).value, Scalar(I64))
  {
    CoerceScalar(TypeCheckExpr(vars, idx).value, I32, I64);
  }

  /** Slicing a 5x6x4 tensor of 32-bit floats with a pair of integers gives a
      vector of 4 such floats, and the pair keeps its type. */
  lemma TensorSlicingScenario(x: Name, i: Info)
    ensures var vars := map[x := Type.Tensor(F32, [5, 6, 4])];
      var pairTy := Type.Tuple([Scalar(I64), Scalar(I64)]);
      var idx := Expr.Tuple([Expr.Int(2, Scalar(I64), i), Expr.Int(5, Scalar(I64), i)], pairTy, i);
      var r := TypeCheckExpr(vars, Expr.Subscript(Expr.Var(x, Unknown, i), idx, Unknown, i));
      && r.Ok?
      && GetType(r.value) == Type.Tensor(F32, [4])
      && GetType(r.value.idx) == pairTy
  {
    var vars := map[x := Type.Tensor(F32, [5, 6, 4])];
    var pairTy := Type.Tuple([Scalar(I64), Scalar(I64)]);
    var a, b := Expr.Int(2, Scalar(I64), i), Expr.Int(5, Scalar(I64), i);
    var idx := Expr.Tuple([a, b], pairTy, i);
    assert [a, b][1..] == [b] && [b][1..] == [];
    assert TypeCheckExpr(vars, a) == Ok(a) && TypeCheckExpr(vars, b) == Ok(b);
    assert TypeCheckExprs(vars, []) == Ok([]);
    assert [b] + [] == [b] && [a] + [b] == [a, b];
    assert TypeCheckExprs(vars, [b]) == Ok([b]);
    assert TypeCheckExprs(vars, [a, b]) == Ok([a, b]);
    assert TypesOf([a, b]) == [Scalar(I64), Scalar(I64)];
    assert TypeCheckExpr(vars, idx) == Ok(idx);
    assert IndexType(pairTy) == pairTy;
    assert [5, 6, 4][2..] == [4 as i64];
  }

  /** `validate_condition_type`: a condition must be a tensor. */
  function ValidateConditionType(cond: Expr, i: Info): Result<Expr, TypeError> {
    if GetType(cond).Tensor? then Ok(cond) else Err(TypeError(i))
  }

  // ---------------------------------------------------------------------
  // Statements (src/py/type_check.rs:518-595)

  /** `type_check_stmt`: the checked statement and the environment after
      it. */
  function TypeCheckStmt(vars: Vars, s: Stmt): Result<(Vars, Stmt), TypeError>
    decreases s
  {
    match s
    case Definition(_, id, expr, i) =>
      var expr' :- TypeCheckExpr(vars, expr);
      var ty := GetType(expr');
      Ok((vars[id := ty], Stmt.Definition(ty, id, expr', i)))
    case Assign(dst, expr, i) =>
      var dst' :- TypeCheckExpr(vars, dst);
      var expr' :- TypeCheckExpr(vars, expr);
      var expr'' :- CoerceType(expr', GetType(dst'));
      Ok((vars, Stmt.Assign(dst', expr'', i)))
    case For(x, lo, hi, step, body, i) =>
      var lo' :- TypeCheckExpr(vars, lo);
      var lo'' :- EnsureScalarType(lo', I64);
      var hi' :- TypeCheckExpr(vars, hi);
      var hi'' :- EnsureScalarType(hi', I64);
      var body' :- TypeCheckStmts(vars[x := Scalar(I64)], body);
      Ok((vars, Stmt.For(x, lo'', hi'', step, body'.1, i)))
    case If(cond, thn, els, i) =>
      var cond' :- TypeCheckExpr(vars, cond);
      var cond'' :- ValidateConditionType(cond', i);
      var thn' :- TypeCheckStmts(vars, thn);
      var els' :- TypeCheckStmts(vars, els);
      Ok((vars, Stmt.If(cond'', thn'.1, els'.1, i)))
    case While(cond, body, i) =>
      var cond' :- TypeCheckExpr(vars, cond);
      var cond'' :- ValidateConditionType(cond', i);
      var body' :- TypeCheckStmts(vars, body);
      Ok((vars, Stmt.While(cond'', body'.1, i)))
    case WithGpuContext(body, i) =>
      var body' :- TypeCheckStmts(vars, body);
      Ok((vars, Stmt.WithGpuContext(body'.1, i)))
    case Label(name, None, i) => Ok((vars, Stmt.Label(name, None, i)))
    case Label(name, Some(inner), i) =>
      var res :- TypeCheckStmt(vars, inner);
      Ok((res.0, Stmt.Label(name, Some(res.1), i)))
  }

  /** The condition of an `if` or `while` statement must check to a tensor:
      the statement is accepted only then, with the checked condition in
      place, and a checked condition of another type is an error at the
      statement's position. */
  lemma ConditionChecked(vars: Vars, s: Stmt)
    requires s.If? || s.While?
    ensures var r := TypeCheckStmt(vars, s);
      var c := TypeCheckExpr(vars, s.cond);
      && (r.Ok? ==> c.Ok? && GetType(c.value).Tensor? && r.value.1.cond == c.value)
      && (c.Ok? && !GetType(c.value).Tensor? ==> r == Err(TypeError(s.i)))
  {
  }

  /** `type_check_stmts`: checks the statements in order, threading the
      environment, and stops at the first error. */
  function TypeCheckStmts(vars: Vars, ss: seq<Stmt>): Result<(Vars, seq<Stmt>), TypeError>
    decreases ss
  {
    if ss == [] then Ok((vars, []))
    else
      var head :- TypeCheckStmt(vars, ss[0]);
      var tail :- TypeCheckStmts(head.0, ss[1..]);
      Ok((tail.0, [head.1] + tail.1))
  }

  /** The variables a statement defines in the scope it appears in: a
      definition, possibly under labels. */
  function DefinedIds(s: Stmt): set<Name> {
    match s
    case Definition(_, id, _, _) => {id}
    case Label(_, Some(inner), _) => DefinedIds(inner)
    case _ => {}
  }

  function DefinedIdsOf(ss: seq<Stmt>): set<Name> {
    set s, x | s in ss && x in DefinedIds(s) :: x
  }

  /** A definition records the type of its checked expression, and a label
      passes on the environment of the statement it labels; no other
      statement changes the environment, so bindings made inside loop and
      branch bodies do not leak out. */
  lemma {:induction false} TypeCheckStmtEnv(vars: Vars, s: Stmt)
    decreases s
    ensures var r := TypeCheckStmt(vars, s);
      && (r.Ok? && s.Definition? ==> r.value.0 == vars[s.id := GetType(TypeCheckExpr(vars, s.expr).value)])
      && (r.Ok? && s.Label? && s.assoc.Some? ==>
            TypeCheckStmt(vars, s.assoc.value).Ok? && r.value.0 == TypeCheckStmt(vars, s.assoc.value).value.0)
      && (r.Ok? ==> r.value.0.Keys == vars.Keys + DefinedIds(s))
      && (r.Ok? ==> forall x :: x in vars && x !in DefinedIds(s) ==> r.value.0[x] == vars[x])
  {
    if s.Label? && s.assoc.Some? {
      TypeCheckStmtEnv(vars, s.assoc.value);
    }
  }

  /** Over a list of statements, the environment grows by exactly the
      variables defined at its top level, and keeps every other binding. */
  lemma {:induction false} TypeCheckStmtsEnv(vars: Vars, ss: seq<Stmt>)
    decreases ss
    ensures var r := TypeCheckStmts(vars, ss);
      && (r.Ok? ==> |r.value.1| == |ss|)
      && (r.Ok? ==> r.value.0.Keys == vars.Keys + DefinedIdsOf(ss))
      && (r.Ok? ==> forall x :: x in vars && x !in DefinedIdsOf(ss) ==> r.value.0[x] == vars[x])
  {
    if ss != [] {
      var r := TypeCheckStmts(vars, ss);
      var head := TypeCheckStmt(vars, ss[0]);
      TypeCheckStmtEnv(vars, ss[0]);
      if head.Ok? {
        TypeCheckStmtsEnv(head.value.0, ss[1..]);
      }
      assert ss == [ss[0]] + ss[1..];
      assert DefinedIdsOf(ss) == DefinedIds(ss[0]) + DefinedIdsOf(ss[1..]) by {
        forall x | x in DefinedIdsOf(ss) ensures x in DefinedIds(ss[0]) + DefinedIdsOf(ss[1..]) {
          var s :| s in ss && x in DefinedIds(s);
          if s != ss[0] {
            assert s in ss[1..];
          }
        }
      }
    } else {
      assert DefinedIdsOf(ss) == {};
    }
  }

  /** A loop is checked with its variable bound to a 64-bit integer in its
      body only: the environment after the loop is the one before it, and
      its bounds are 64-bit integers. */
  lemma ForScope(vars: Vars, x: Name, lo: Expr, hi: Expr, step: i64, body: seq<Stmt>, i: Info)
    ensures var r := TypeCheckStmt(vars, Stmt.For(x, lo, hi, step, body, i));
      var b := TypeCheckStmts(vars[x := Scalar(I64)], body);
      && (r.Ok? ==> r.value.0 == vars && b.Ok? && r.value.1.body == b.value.1)
      && (r.Ok? ==> GetType(r.value.1.lo) == Scalar(I64) && GetType(r.value.1.hi) == Scalar(I64))
  {
    var r := TypeCheckStmt(vars, Stmt.For(x, lo, hi, step, body, i));
    if r.Ok? {
      EnsureScalarTypeSpec(TypeCheckExpr(vars, lo).value, I64);
      EnsureScalarTypeSpec(TypeCheckExpr(vars, hi).value, I64);
    }
  }

  /** An assignment coerces the assigned value to the type of its
      destination. */
  lemma AssignCoerces(vars: Vars, dst: Expr, expr: Expr, i: Info)
    ensures var r := TypeCheckStmt(vars, Stmt.Assign(dst, expr, i));
      r.Ok? ==> r.value.0 == vars && GetType(r.value.1.expr) == GetType(r.value.1.dst)
  {
    var r := TypeCheckStmt(vars, Stmt.Assign(dst, expr, i));
    if r.Ok? {
      CoerceTypeResult(TypeCheckExpr(vars, expr).value, GetType(r.value.1.dst));
    }
  }

  /** The environment of the parameters: later parameters of the same name
      override earlier ones, as collecting pairs into a `BTreeMap` does. */
  function ParamsEnv(params: seq<Param>): Vars {
    if params == [] then map[]
    else
      var last := params[|params| - 1];
      ParamsEnv(params[..|params| - 1])[last.id := last.ty]
  }

  /** The parameter environment binds exactly the parameter names. */
  lemma {:induction false} ParamsEnvKeys(params: seq<Param>)
    ensures forall x :: x in ParamsEnv(params) <==> exists k :: 0 <= k < |params| && params[k].id == x
  {
    if params != [] {
      var init := params[..|params| - 1];
      var last := params[|params| - 1];
      var env := ParamsEnv(params);
      assert env == ParamsEnv(init)[last.id := last.ty];
      ParamsEnvKeys(init);
      forall x | x in env ensures exists k :: 0 <= k < |params| && params[k].id == x {
        if x != last.id {
          var k :| 0 <= k < |init| && init[k].id == x;
          assert params[k].id == x;
        }
      }
      forall x | exists k :: 0 <= k < |params| && params[k].id == x ensures x in env {
        var k :| 0 <= k < |params| && params[k].id == x;
        if k < |init| {
          assert init[k].id == x;
        }
      }
    }
  }

  /** No later parameter shares the name of parameter `k`. */
  predicate LastOccurrence(params: seq<Param>, k: nat)
    requires k < |params|
  {
    forall j :: k < j < |params| ==> params[j].id != params[k].id
  }

  /** Each parameter name is bound to the type of its last occurrence. */
  lemma {:induction false} ParamsEnvSpec(params: seq<Param>)
    ensures forall k :: 0 <= k < |params| && LastOccurrence(params, k) ==>
      params[k].id in ParamsEnv(params) && ParamsEnv(params)[params[k].id] == params[k].ty
  {
    if params != [] {
      var init := params[..|params| - 1];
      var last := params[|params| - 1];
      var env := ParamsEnv(params);
      assert env == ParamsEnv(init)[last.id := last.ty];
      ParamsEnvSpec(init);
      forall k | 0 <= k < |params| && LastOccurrence(params, k)
        ensures params[k].id in env && env[params[k].id] == params[k].ty
      {
        if k < |init| {
          assert init[k] == params[k];
          assert last.id != params[k].id;
          assert LastOccurrence(init, k) by {
            forall j | k < j < |init| ensures init[j].id != init[k].id {
              assert init[j] == params[j];
            }
          }
        }
      }
    }
  }

  /** `type_check_body`: checks the body under the parameters' types. */
  function TypeCheckBody(body: seq<Stmt>, params: seq<Param>): Result<seq<Stmt>, TypeError> {
    var res :- TypeCheckStmts(ParamsEnv(params), body);
    Ok(res.1)
  }

  /** A checked body has one statement per statement of the input. */
  lemma TypeCheckBodyLength(body: seq<Stmt>, params: seq<Param>)
    ensures TypeCheckBody(body, params).Ok? ==> |TypeCheckBody(body, params).value| == |body|
  {
    TypeCheckStmtsEnv(ParamsEnv(params), body);
  }
}
